=== FILE: README.md ===
# Umoja Vault chama ledger — a Dafny model

Umoja Vault keeps the books of a chama, a savings group: members, their
contributions and balances, and a paid subscription to the text-message
service. This project models its core in Dafny 4.11 and proves properties
of the model.

The model covers three parts of the system:

- **The ledger** (`ledger.dfy`). The operations on members, payments and
  subscriptions work on an immutable `Store`:
  - members and subscriptions are maps keyed by phone;
  - payments form a sequence in insertion order;
  - `nextId` is the next autoincrement id.

  Listings over the keyed tables are methods that walk the key set and
  insertion-sort the rows (`order.dfy`).
- **The command interpreter** (`bot.dfy`). One inbound message goes through
  these steps:
  1. The sender address loses every `whatsapp:`.
  2. The body is stripped of Python white space and upper-cased.
  3. A phone without a subscription row is stopped at the gate unless the
     message starts with `SUBSCRIBE`.
  4. The first matching command runs.

  Replies are a datatype of reply kinds that carry the values the text would
  show. Python's `str.strip`, `upper`, `title`, `split()`, `split(' ', 1)` and
  `replace` are modelled in `text.dfy`. The decimal part of `float()` is
  modelled in `amount.dfy`: a sign, digits, one point and an exponent.
- **The scheduled sweeps** (`sweeps.dfy`):
  - the monthly subscription charge;
  - the weekly reminder;
  - the on-demand contribution reminder;
  - the choice of members who receive the weekly report.

  Outbound messages are collected in an outbox. Whether the gateway accepted
  a message is an oracle `delivered: Outbound -> bool`.

Properties that relate several operations are in `ledger_facts.dfy` and
`bot_facts.dfy`:

- round trips such as pay then balance, and delete then get;
- case insensitivity;
- a frame: a message changes only its sender's rows;
- the accounting invariant on the two paths that keep it: a contribution
  and the monthly charge each move a member's balance by exactly what they
  add to its net payment history (contributions in, subscription fees
  out). A `subscription` payment recorded directly through `add_payment`
  does not keep it. The balance stays while the net drops
  (`LedgerFacts.SubscriptionPaymentDrifts`).

Three behaviours of the code are easy to misread. The model follows the code:

- **Gate:** a phone without a subscription row gets through the gate with
  every message that starts with `SUBSCRIBE`, not only with `SUBSCRIBE`
  itself. `SUBSCRIBEX` passes the gate and is then an unknown command
  (`BotFacts.SubscribeSuffixIsUnknown`).
- **Registered name:** the name is title-cased from the upper-cased
  message. That equals the title case of what was typed, whatever its
  case (`BotFacts.RegisteredNameIgnoresCase`).
- **Payment filter:** `get_payments` tests its filter by truthiness. An
  empty phone therefore lists every payment, like no filter (`Ledger.Selected`).

## Model

| member | source | states |
|---|---|---|
| Ledger.CreateMember | models.py:88-99 | Succeeds exactly when the phone has no member. On success the member is active, has the given name and balance, no last payment and today's join date. Every other table and member is unchanged; a failed insert changes nothing. |
| LedgerFacts.CreateMemberTwice | models.py:88-99 | A second insert of the same phone fails and leaves exactly the store the first insert produced, so the first name and balance stay. |
| Ledger.UpdateMember | models.py:139-149 | Fails on an empty column list. Otherwise succeeds exactly when a member row matched. Only the named columns take the new values; other members, subscriptions and payments are untouched. |
| Ledger.DeleteMember | models.py:151-162 | Reports success exactly when a member row existed. The phone's payments and subscription go in every case. Other phones keep their rows, and every payment of another phone stays. The next id is unchanged. |
| Ledger.DeleteMemberKeepsIds | models.py:151-162 | When ids were issued in increasing order, deleting keeps them increasing and below the next id, so the remaining payments keep their order. |
| LedgerFacts.DeleteThenGet | models.py:151-162 | After a delete, `get_member` and `get_subscription` find nothing for the phone, and no row of the payment listing carries it. |
| Ledger.AddPayment | models.py:168-192 | Appends one payment with the next id and today's date. A contribution raises the member's balance by the amount and stamps the last payment. Any other kind leaves every member unchanged. Increasing ids are preserved. |
| LedgerFacts.ContributeAddsUp | models.py:168-192 | A run of contributions raises the member's balance by their sum, leaves other members alone and adds one payment per amount. |
| LedgerFacts.FreshMemberBalance | models.py:88-99 | A member created with balance b and then paid a1..an has balance b + a1 + ... + an. |
| LedgerFacts.ContributionKeepsAccount | models.py:168-192 | A contribution moves the member's balance by exactly what it adds to the member's net: contributions minus subscription fees. |
| LedgerFacts.SubscriptionPaymentDrifts | models.py:168-192 | A `subscription` payment recorded for a member leaves its row unchanged but lowers its net by the amount. The balance no longer matches the payment history. |
| LedgerFacts.DanglingPayment | models.py:168-192 | A payment for a phone without a member is still recorded and counted in the summary. No member changes, and the joined listing does not show it. |
| Ledger.PaymentsNotOfKeepsOrder | models.py:155 | Removing one phone's payments keeps the ids of the rest increasing. |
| Ledger.GetPayments | models.py:194-228 | Shows every payment whose phone has a member and which the filter selects, joined with the member's name and nothing else, newest first. The number of rows equals the number of such payments. |
| Ledger.Joined | models.py:198-201 | The inner join of payments with members: exactly the selected payments whose phone has a member, each with that member's name. |
| LedgerFacts.SummaryAfterPayment | models.py:230-259 | A contribution raises the total by its amount and the count by one. The monthly figure rises only when the payment falls in the current month. A payment of any other kind leaves the summary unchanged. |
| LedgerFacts.SummaryBounds | models.py:230-259 | With non-negative contributions, the month's figure lies between zero and the all-time total, and the count is at most the number of payments. |
| Ledger.CreateSubscription | models.py:265-276 | Insert or replace: afterwards the phone has exactly one active subscription with this plan, started today and with no end date. Other phones, members and payments are unchanged. |
| Ledger.GetMember | models.py:101-118 | Finds a row exactly when the phone is a member, and then it is that member's row. |
| Ledger.GetSubscription | models.py:278-294 | Finds a row exactly when the phone has a subscription, and then it is that subscription's row. |
| Ledger.PaymentSummary | models.py:230-259 | Counts at most the number of payments. With no contribution on record, the total, the month's figure and the count are all zero. |
| Ledger.GetAllMembers | models.py:120-137 | Every member appears exactly once, with its current row, ordered by name. |
| Ledger.GetAllSubscriptions | models.py:296-315 | Every subscription whose phone has a member appears exactly once, joined with the member's name, newest start date first. Nothing else appears. |
| Order.SortBy | models.py:203 | The sorted listing is a permutation of its input and is ordered by the given total preorder. |
| Order.InsertSorted | models.py:124 | Inserting into an ordered listing keeps it ordered. |
| Order.InsertDistinct | models.py:124 | Inserting a row whose key is new keeps the keys of a listing distinct. |
| Order.StrLeTotal | models.py:124 | The text order of `ORDER BY name` relates any two names. |
| Order.StrLeTransitive | models.py:124 | The text order of `ORDER BY name` is transitive. |
| Text.Strip | whatsapp.py:38 | The result is a slice of the input, with only white space cut on both sides, and does not begin or end in white space. |
| Text.StripUpper | whatsapp.py:38 | Stripping and upper-casing commute. |
| Text.UpperIdempotent | whatsapp.py:38 | Upper-casing twice is upper-casing once. |
| Text.RemoveAllAbsent | whatsapp.py:37 | Removing a pattern that occurs nowhere in the text leaves the text as it is. |
| Text.SplitOnce | whatsapp.py:102 | Gives two parts exactly when the separator occurs. Then the first part holds no separator, and the parts joined by the separator give back the text. One part is the text itself. |
| Text.TitleFromIgnoresCase | whatsapp.py:106 | Title case does not depend on the case of the input. |
| Text.TitleFromIdempotent | whatsapp.py:106 | Title-casing twice is title-casing once. |
| Text.KeywordWords | whatsapp.py:66-67 | A message that starts with a keyword and a space, after stripping, splits into at least two words, the first being the keyword. |
| Text.Words | whatsapp.py:66 | No word is empty and no word holds white space. Which words come back is stated by `Text.WordsOfLayout` and `Text.WordsLayout`. |
| Text.WordsOfLayout | whatsapp.py:66 | Whenever a text is white space interleaved with non-empty space-free words, with white space between any two words, `split()` returns exactly those words in order. |
| Text.WordsLayout | whatsapp.py:66 | Every text is such an interleaving of white space with the words `split()` returns. Together with `Text.WordsOfLayout`, the words are exactly the maximal non-space runs, in order. |
| Text.TwoWords | whatsapp.py:66 | Two runs of non-space characters around one space split into exactly those two words. |
| Amount.ParseAmount | whatsapp.py:70 | An amount that parses starts with a digit, a sign or a decimal point. |
| Amount.ParseDecimal | whatsapp.py:70 | The decimal digits of any natural number parse back to that number. |
| Amount.ParseNegativeDecimal | whatsapp.py:70 | A minus sign and the digits of n parse to minus n, which the payment handler then refuses as not positive. |
| Amount.DecimalValue | whatsapp.py:70 | The digits written for n have the value n. |
| Bot.PhoneOf | whatsapp.py:37 | The phone is never longer than the address. An address without `whatsapp:` is the phone itself. |
| Bot.Normalize | whatsapp.py:38 | The command text is the upper case of a piece of the body that has only white space before and after it, and the text itself neither starts nor ends with white space. It is never longer than the body and holds no lower-case letter. |
| Bot.Classify | whatsapp.py:46-61 | Each command is recognised exactly when its pattern matches: a `PAY `/`REGISTER ` prefix, or equality for the one-word commands. No message matches two patterns. |
| Bot.ProcessPayment | whatsapp.py:63-89 | Fewer than two words is a format error. A second word that is not a number is an invalid amount. Otherwise the parsed amount goes to the amount checks, and nothing is written unless a payment is recorded. |
| Bot.PayAmount | whatsapp.py:70-81 | A non-positive amount is refused before the member is looked up. An unknown phone is told to register. Otherwise exactly one contribution of that amount is appended with the next id, the balance rises by it, and the reply shows the new balance. |
| Bot.ProcessBalanceInquiry | whatsapp.py:91-97 | Shows the name and balance exactly when the phone is a member, and the register prompt otherwise. |
| Bot.ProcessRegistration | whatsapp.py:99-116 | Without a space there is no name. Otherwise the title-cased text after the first space becomes a new member with balance zero, and the reply welcomes that name. An existing member changes nothing and is told so. |
| Bot.ProcessSubscription | whatsapp.py:118-129 | Whatever the phone had, it now has an active basic subscription started today. Members and payments are untouched. |
| Bot.ProcessUpgradeInquiry | whatsapp.py:131-138 | Says "already premium" exactly when the plan is premium, whatever its status, and describes the premium plan otherwise. |
| Bot.ProcessReportRequest | whatsapp.py:140-147 | Reports are available exactly on a premium plan, whatever its status; otherwise the reply prompts an upgrade. |
| Bot.Dispatch | whatsapp.py:45-61 | A `PAY ` or `REGISTER ` prefix runs the payment or registration handler. `BALANCE`, `SUBSCRIBE`, `UPGRADE`, `REPORT` and `HELP` run their handlers when the message is exactly that word. Anything else is an unknown command. Only payment, welcome and subscribe replies write. The format errors and the subscribe prompt are unreachable from dispatch. |
| Bot.HandleMessage | whatsapp.py:34-61 | The subscribe prompt comes from the gate when the phone has no subscription row and the message does not start with `SUBSCRIBE`. Otherwise the stripped, upper-cased body is dispatched for the phone taken from the address. Replies that do not write leave the store unchanged. A payment is only recorded for a member. |
| BotFacts.GateExactly | whatsapp.py:40-43 | The subscribe prompt is given if and only if the gate closes. A subscription row in any status opens it. |
| BotFacts.OnlySenderChanges | whatsapp.py:34-61 | A message touches only its sender's member and subscription rows. The payment table either stays or gains exactly one contribution from the sender. |
| BotFacts.DispatchOnlyPhoneChanges | whatsapp.py:45-61 | The same frame for the dispatched command. |
| BotFacts.MessageIgnoresCase | whatsapp.py:38 | A message and its upper-cased form get the same reply and the same store. |
| BotFacts.NormalizeIgnoresCase | whatsapp.py:38 | Normalisation does not depend on the case of the body. |
| BotFacts.RegisteredNameIgnoresCase | whatsapp.py:106 | The registered name is the title case of what was typed, whatever its case. |
| BotFacts.PrefixedSender | whatsapp.py:37 | The address `whatsapp:<phone>` maps back to `<phone>`. |
| BotFacts.PaymentStore | whatsapp.py:63-81 | After a recorded payment the sender still has its subscription row and its name, and its balance is the one the reply reported. |
| BotFacts.PayThenBalance | whatsapp.py:63-97 | After a recorded payment, `BALANCE` from the same sender changes nothing and shows the balance the payment reply reported. |
| BotFacts.WelcomeStore | whatsapp.py:99-116 | After a welcome the sender is a member and still has its subscription row. |
| BotFacts.RegisterTwice | whatsapp.py:99-116 | After a welcome, any further `REGISTER` from the same sender is refused and changes nothing. |
| BotFacts.SubscribeThenBalance | whatsapp.py:40-53 | An unsubscribed phone's `BALANCE` gets the subscribe prompt. After `SUBSCRIBE`, the same unregistered phone's `BALANCE` gets the register prompt. |
| BotFacts.PayFiveHundred | whatsapp.py:63-81 | `pay 500` from a member holding 1000 records one contribution of 500 and reports 1500. |
| BotFacts.PayNotANumber | whatsapp.py:70-86 | `PAY abc` is an invalid amount and changes nothing. |
| BotFacts.SubscribeSuffixIsUnknown | whatsapp.py:42-61 | `SUBSCRIBEX` passes the gate of an unsubscribed phone and is answered as an unknown command. |
| Sweeps.Fee | scheduler.py:105 | The fee is 100 exactly for the basic plan and 300 for every other plan name. |
| Sweeps.BillingNotice | scheduler.py:108-146 | A member whose balance covers the plan's fee is told the fee and the balance after it. Any other member is told the fee and its current balance. |
| Sweeps.BillOne | scheduler.py:100-146 | An inactive subscription or a missing member is skipped. A member whose balance covers the fee has exactly the fee deducted, gets one `subscription` payment for it and a confirmation with the new balance. A member who cannot pay gets a warning and nothing changes. |
| Sweeps.ChargeAt | scheduler.py:100-134 | With distinct phones, a phone's charge over the listing is decided by its own row. |
| Sweeps.ChargeFrame | scheduler.py:100-134 | Changing one member does not change what the sweep owes for the other rows. |
| Sweeps.BillAll | scheduler.py:100-146 | The loop over the listing keeps the subscriptions and the set of members. It only appends payments and messages, and counts exactly the payments it appends. |
| Sweeps.BillAllMembers | scheduler.py:97-146 | Against the ledger before the sweep, each member loses exactly its charge and nothing else in its row changes. Subscriptions are untouched. |
| Sweeps.BillAllFees | scheduler.py:100-134 | With distinct phones, the payments the loop appends are exactly the fee payments the listing owes, as the ledger stood before the loop. |
| Sweeps.BillAllNotices | scheduler.py:100-146 | With distinct phones, the messages the loop sends are exactly the billing notices the listing calls for, as the ledger stood before the loop. |
| Sweeps.FeePaymentsExact | scheduler.py:100-134 | Over a listing that agrees with the ledger and names each phone once, each fee payment is today's `subscription` payment of a due member for its plan's fee, every due listed member gets one, and no phone gets two. |
| Sweeps.NoticesExact | scheduler.py:100-146 | Over such a listing, each notice goes to a member with an active subscription and says whether the fee was charged. Every listed member with an active subscription gets one, and no phone gets two. |
| Sweeps.SweepFees | scheduler.py:97-134 | Over the full listing, the sweep keeps the earlier payments as a prefix. It adds only fee payments of due members, one for every due member and none twice. |
| Sweeps.SweepNotices | scheduler.py:97-146 | Over the full listing, every message is the billing notice of a member with an active subscription. Every such member gets exactly one. |
| Sweeps.BillAllPayments | scheduler.py:97-146 | The earlier payments stay. One `subscription` payment dated today is added per due subscription, and the processed count equals that number. |
| Sweeps.BillAllNet | scheduler.py:97-146 | Each phone's net moves by minus its charge, as its balance does. |
| Sweeps.ChargeOfListing | scheduler.py:97-108 | Over the full subscription listing, a phone's charge is its plan's fee when the phone is due and nothing otherwise. Due means an active subscription, a member, and a balance that covers the fee. |
| Sweeps.ProcessMonthlySubscriptions | scheduler.py:92-151 | Each member is charged at most once, by exactly its plan's fee when due. Due means an active subscription, a member, and a balance that covers the fee. A non-negative balance stays non-negative. Other columns, subscriptions and earlier payments are untouched. Each new payment is today's `subscription` payment of a due member for its plan's fee. Every due member gets one and no phone gets two. The processed count is the number of new payments, and every net moves with its balance. Every member with an active subscription gets exactly one message: a confirmation with the new balance, or a warning with the current one. |
| Sweeps.RemindersExact | scheduler.py:70-85 | Over a listing that agrees with the member table and names each phone once, the reminders go to exactly the listed members the sweep wants, once each and with their own figures. |
| Sweeps.SendReminders | scheduler.py:70-85 | Walks the member listing and reminds exactly the members the sweep wants, each once and with its own figures, counting the messages the gateway accepted. |
| Sweeps.CollectReminders | scheduler.py:70-85 | The loop builds exactly the reference list of reminders for the listing and counts the ones the gateway accepted. |
| Sweeps.SendWeeklyReminders | scheduler.py:62-90 | Reminds exactly the active members with an active subscription, once each and with their name, balance and last payment. Every reminder goes to such a member. The count is the number of reminders the gateway accepted. |
| Sweeps.SendPaymentReminders | whatsapp.py:160-173 | Reminds exactly the active members with a subscription row of any status, once each and with their name and balance. Every reminder goes to such a member. |
| Sweeps.ReportRowsExact | scheduler.py:189-195 | Over a sorted listing with distinct phones, the filter keeps exactly the premium, active rows that have a member, once each and in the listing's order. |
| Sweeps.SelectReportRows | scheduler.py:191-193 | The loop keeps exactly the reference selection of premium, active rows that have a member. |
| Sweeps.WeeklyReportTargets | scheduler.py:189-195 | Picks exactly the active premium subscriptions that have a member, once each, keeping the listing's newest-first order. |

## Left out

- SQLite plumbing is not modelled: connections, queries as text, and the
  `settings` table. The tables are maps and a sequence.
- Clock readings become a `today`/`now` parameter. Dates are plain
  year/month/day values. The difference between SQLite's UTC
  `CURRENT_DATE` and the local `datetime.now()` is not modelled.
- The Twilio client and `send_message` are not modelled. A send is an
  oracle, and only the weekly sweep looks at its answer.
- The wording of replies and notices is not modelled, nor the `:,.0f`
  rounding of amounts in them. Replies and notices are kinds carrying the
  values shown. `_get_help_message` is the `HelpText` reply.
- Floating point is not modelled: amounts and balances are exact reals.
  `float()` is modelled only for signs, digits, one point and an exponent.
- `Bot.ProcessPayment`: the model answers invalid amount to `PAY INF`,
  `PAY INFINITY`, `PAY NAN` and `PAY 1_000`, and to digits outside ASCII.
  Python's `float()` accepts all of them, so the program records these
  payments. NaN even passes the `amount <= 0` test, and `inf` records an
  infinite amount. Neither value exists among exact reals. Overflow and
  underflow are not modelled either. `PAY 1E400` records `inf` in the
  program, while the model records 10^400. `PAY 1E-400` gives 0.0 in the
  program, which refuses it as not positive, while the model records
  10^-400.
- `Amount.ParseAmount`: states only the first-character shape of what
  parses. Its agreement with `float()` is stated for decimal integers
  (`Amount.ParseDecimal`, `Amount.ParseNegativeDecimal`).
- Case mapping and title case cover ASCII letters only. Python's
  `str.upper` and `str.title` on other scripts are not modelled.
- Exceptions and store failures are not modelled. These are the
  "Failed to record payment", "Error processing payment", registration and
  subscription error replies. Writes are assumed to succeed, as they do
  on a healthy database.
- `Ledger.UpdateMember`: only the five member columns can be named; none
  of the following is modelled. Naming `phone` with a phone that has no
  member re-keys the member row and returns true. SQLite leaves foreign
  keys off and the program never turns them on, so the member's payments
  and subscription stay under the old phone, orphaned. Naming `phone`
  with a phone that already has a member raises a primary-key error, and
  an unknown column name raises a database error. `update_member` does
  not catch either.
- Report files, the report service, the statement download, the daily
  backup and the cron timing of the jobs are not modelled. From the report
  job, only the choice of recipients is modelled.
- The HTTP service, the dashboard and concurrent access are not modelled.
- `Sweeps.SendWeeklyReminders`: an exception is caught and logged, ending
  the sweep early. The model runs the sweep to the end.

=== FILE: amount.dfy ===
/** The amount in `PAY <amount>` goes through Python's `float()`. This
    module models the decimal part of that grammar: an optional sign,
    digits with at most one decimal point (at least one digit in all), and
    an optional exponent `e`/`E` with optional sign and digits. Values are
    exact reals. */
module Amount {
  import opened Wrappers

  predicate IsDigit(c: char) { '0' <= c <= '9' }

  /** Number of leading decimal digits of `s`. */
  function DigitRun(s: string): (n: nat)
    ensures n <= |s|
    ensures forall k :: 0 <= k < n ==> IsDigit(s[k])
    ensures n < |s| ==> !IsDigit(s[n])
  {
    if s == [] || !IsDigit(s[0]) then 0 else 1 + DigitRun(s[1..])
  }

  predicate AllDigits(s: string) {
    forall k :: 0 <= k < |s| ==> IsDigit(s[k])
  }

  /** The value of a string of decimal digits, most significant first. */
  function DigitsValue(ds: string): nat
    requires AllDigits(ds)
  {
    if ds == [] then 0
    else DigitsValue(ds[..|ds| - 1]) * 10 + (ds[|ds| - 1] as int - '0' as int)
  }

  function Pow10(n: nat): (p: nat)
    ensures p >= 1
  {
    if n == 0 then 1 else 10 * Pow10(n - 1)
  }

  /** Multiplier for a decimal exponent. */
  function Scale(e: int): real {
    if e >= 0 then Pow10(e) as real else 1.0 / Pow10(-e) as real
  }

  /** The exponent suffix: empty, or `e`/`E`, an optional sign and at least
      one digit, and nothing after. */
  function ParseExponent(s: string): Option<int> {
    if s == [] then Some(0)
    else if s[0] != 'e' && s[0] != 'E' then None
    else
      var t := s[1..];
      var neg := |t| > 0 && t[0] == '-';
      var u := if |t| > 0 && (t[0] == '-' || t[0] == '+') then t[1..] else t;
      if u != [] && DigitRun(u) == |u| then
        Some(if neg then 0 - DigitsValue(u) as int else DigitsValue(u) as int)
      else None
  }

  /** An unsigned decimal literal. */
  function ParseUnsigned(s: string): Option<real> {
    var i := DigitRun(s);
    var whole := s[..i];
    var rest := s[i..];
    var hasPoint := |rest| > 0 && rest[0] == '.';
    var afterPoint := if hasPoint then rest[1..] else [];
    var j := DigitRun(afterPoint);
    var fraction := afterPoint[..j];
    var tail := if hasPoint then afterPoint[j..] else rest;
    if |whole| + |fraction| == 0 then None
    else
      match ParseExponent(tail)
      case None => None
      case Some(e) =>
        var mantissa := DigitsValue(whole) as real + DigitsValue(fraction) as real / Pow10(|fraction|) as real;
        Some(mantissa * Scale(e))
  }

  /** `float(t)` on a token without white space. Whatever it accepts
      starts with a digit, a sign or a decimal point. */
  function ParseAmount(t: string): (r: Option<real>)
    ensures r.Some? ==> |t| > 0 && (IsDigit(t[0]) || t[0] == '+' || t[0] == '-' || t[0] == '.')
  {
    if |t| > 0 && t[0] == '+' then ParseUnsigned(t[1..])
    else if |t| > 0 && t[0] == '-' then
      match ParseUnsigned(t[1..])
      case None => None
      case Some(v) => Some(-v)
    else ParseUnsigned(t)
  }

  /** The decimal numeral of a natural number. */
  function Decimal(n: nat): (ds: string)
    ensures |ds| > 0 && AllDigits(ds)
  {
    var d := ['0' + (n % 10) as char];
    if n < 10 then d else Decimal(n / 10) + d
  }

  lemma {:induction false} DecimalValue(n: nat)
    ensures DigitsValue(Decimal(n)) == n
  {
    var ds := Decimal(n);
    if n >= 10 {
      DecimalValue(n / 10);
      assert ds[..|ds| - 1] == Decimal(n / 10);
    }
  }

  /** Parsing the numeral of `n` gives `n` back. */
  lemma ParseDecimal(n: nat)
    ensures ParseAmount(Decimal(n)) == Some(n as real)
  {
    var ds := Decimal(n);
    DecimalValue(n);
    assert DigitRun(ds) == |ds|;
    assert ds[..|ds|] == ds;
    assert ds[|ds|..] == [];
  }

  /** Parsing a minus sign and the numeral of `n` gives `-n`: the bot
      rejects such amounts as not positive rather than as malformed. */
  lemma ParseNegativeDecimal(n: nat)
    ensures ParseAmount("-" + Decimal(n)) == Some(-(n as real))
  {
    ParseDecimal(n);
    assert ("-" + Decimal(n))[1..] == Decimal(n);
  }
}

=== FILE: bot.dfy ===
/** The text-message command interpreter: one inbound message, from a
    sender address and with a free-text body, becomes a reply and possibly
    one ledger write. Replies are modelled by kind, carrying the values the
    formatted text would show. */
module Bot {
  import opened Wrappers
  import opened Text
  import opened Amount
  import opened Ledger

  /** The transport's address prefix, removed wherever it occurs. */
  const ChannelPrefix := "whatsapp:"

  /** Fee quoted in the subscribe prompt and confirmation, per month. */
  const BasicPrice := 100
  /** Fee quoted by the upgrade reply, per month. */
  const PremiumPrice := 300

  datatype Reply =
    | SubscribePrompt
    | PayFormatError
    | InvalidAmount
    | NonPositiveAmount
    | NotRegistered
    | PaymentRecorded(amount: real, newBalance: real)
    | BalanceInfo(name: string, balance: real)
    | MissingName
    | Welcome(name: string)
    | AlreadyRegistered
    | Subscribed
    | AlreadyPremium
    | UpgradeInfo
    | ReportReady
    | ReportNeedsUpgrade
    | HelpText
    | UnknownCommand

  /** The replies that come with a write to the ledger. */
  predicate Writes(reply: Reply) {
    reply.PaymentRecorded? || reply.Welcome? || reply.Subscribed?
  }

  datatype Handled = Handled(store: Store, reply: Reply)

  /** The phone key of a sender address. */
  function PhoneOf(sender: string): (phone: string)
    ensures |phone| <= |sender|
    ensures !Contains(sender, ChannelPrefix) ==> phone == sender
  {
    if Contains(sender, ChannelPrefix) then RemoveAll(sender, ChannelPrefix)
    else
      RemoveAllAbsent(sender, ChannelPrefix);
      RemoveAll(sender, ChannelPrefix)
  }

  /** The body as matched against the grammar: stripped, upper-cased. */
  function Normalize(body: string): (msg: string)
    ensures Stripped(msg)
    ensures |msg| <= |body|
    ensures forall k :: 0 <= k < |msg| ==> !IsLower(msg[k])
    ensures exists i, j :: 0 <= i <= j <= |body| && AllSpace(body[..i]) && AllSpace(body[j..])
                           && msg == Upper(body[i..j])
  {
    var s := Strip(body);
    UpperPointwise(s);
    Upper(s)
  }

  datatype Command = PayCmd | BalanceCmd | RegisterCmd | SubscribeCmd | UpgradeCmd | ReportCmd | HelpCmd | UnknownCmd

  /** First match over the grammar. No message matches two patterns, so
      the order of the tests decides nothing. */
  function Classify(msg: string): (c: Command)
    ensures c == PayCmd <==> StartsWith(msg, "PAY ")
    ensures c == BalanceCmd <==> msg == "BALANCE"
    ensures c == RegisterCmd <==> StartsWith(msg, "REGISTER ")
    ensures c == SubscribeCmd <==> msg == "SUBSCRIBE"
    ensures c == UpgradeCmd <==> msg == "UPGRADE"
    ensures c == ReportCmd <==> msg == "REPORT"
    ensures c == HelpCmd <==> msg == "HELP"
  {
    if StartsWith(msg, "PAY ") then
      assert msg[0] == "PAY "[0];
      PayCmd
    else if msg == "BALANCE" then BalanceCmd
    else if StartsWith(msg, "REGISTER ") then
      assert msg[..3] == "REGISTER "[..3];
      RegisterCmd
    else if msg == "SUBSCRIBE" then SubscribeCmd
    else if msg == "UPGRADE" then UpgradeCmd
    else if msg == "REPORT" then ReportCmd
    else if msg == "HELP" then HelpCmd
    else UnknownCmd
  }

  /** `PAY <amount>`: fewer than two words is a format error, a second
      word that does not parse is an invalid amount; otherwise the amount
      is checked and recorded by `PayAmount`. */
  function ProcessPayment(st: Store, phone: string, msg: string, today: Date): (r: Handled)
    ensures !r.reply.PaymentRecorded? ==> r.store == st
    ensures r.reply.PaymentRecorded? ==> phone in st.members
    ensures |Words(msg)| < 2 ==> r.reply == PayFormatError
    ensures |Words(msg)| >= 2 ==>
      var amount := ParseAmount(Words(msg)[1]);
      && (amount.None? ==> r == Handled(st, InvalidAmount))
      && (amount.Some? ==> r == PayAmount(st, phone, amount.value, today))
  {
    var parts := Words(msg);
    if |parts| < 2 then Handled(st, PayFormatError)
    else
      match ParseAmount(parts[1])
      case None => Handled(st, InvalidAmount)
      case Some(amount) => PayAmount(st, phone, amount, today)
  }

  /** The checks on a parsed amount: it must be positive, checked before
      the member is looked up; then one contribution is recorded and the
      reply reports the balance it produced. */
  function PayAmount(st: Store, phone: string, amount: real, today: Date): (r: Handled)
    ensures !r.reply.PaymentRecorded? ==> r.store == st
    ensures amount <= 0.0 ==> r.reply == NonPositiveAmount
    ensures amount > 0.0 && phone !in st.members ==> r.reply == NotRegistered
    ensures amount > 0.0 && phone in st.members ==>
      && r.reply == PaymentRecorded(amount, st.members[phone].balance + amount)
      && r.store.payments == st.payments + [Payment(st.nextId, phone, amount, today, ContributionKind, "")]
      && r.store.members == st.members[phone := st.members[phone].(
           balance := st.members[phone].balance + amount, lastPayment := Some(today))]
      && r.store.subscriptions == st.subscriptions
      && r.store.nextId == st.nextId + 1
  {
    if amount <= 0.0 then Handled(st, NonPositiveAmount)
    else if GetMember(st, phone).None? then Handled(st, NotRegistered)
    else
      var st' := AddPayment(st, phone, amount, ContributionKind, "", today);
      Handled(st', PaymentRecorded(amount, st'.members[phone].balance))
  }

  /** `BALANCE`: the member's name and balance, or the register prompt. */
  function ProcessBalanceInquiry(st: Store, phone: string): (reply: Reply)
    ensures reply.BalanceInfo? <==> phone in st.members
    ensures reply.BalanceInfo? ==> reply == BalanceInfo(st.members[phone].name, st.members[phone].balance)
    ensures !reply.BalanceInfo? ==> reply == NotRegistered
  {
    match GetMember(st, phone)
    case Some(m) => BalanceInfo(m.name, m.balance)
    case None => NotRegistered
  }

  /** `REGISTER <name>`: the text after the first space, title-cased,
      becomes the name of a new member with balance zero; an existing
      member is left alone. */
  function ProcessRegistration(st: Store, phone: string, msg: string, today: Date): (r: Handled)
    ensures ' ' !in msg ==> r == Handled(st, MissingName)
    ensures ' ' in msg ==>
      var name := Title(msg[IndexOf(msg, ' ') + 1..]);
      && (phone in st.members ==> r == Handled(st, AlreadyRegistered))
      && (phone !in st.members ==>
            && r.reply == Welcome(name)
            && r.store.members == st.members[phone := Member(name, 0.0, None, today, Active)]
            && r.store.subscriptions == st.subscriptions
            && r.store.payments == st.payments && r.store.nextId == st.nextId)
  {
    var parts := SplitOnce(msg, ' ');
    if |parts| < 2 then Handled(st, MissingName)
    else
      var name := Title(parts[1]);
      var created := CreateMember(st, phone, name, 0.0, today);
      if created.ok then Handled(created.store, Welcome(name))
      else Handled(st, AlreadyRegistered)
  }

  /** `SUBSCRIBE`: whatever the phone had, it now has an active basic
      subscription started today; nothing else changes. */
  function ProcessSubscription(st: Store, phone: string, today: Date): (r: Handled)
    ensures r.reply == Subscribed
    ensures r.store.subscriptions == st.subscriptions[phone := Subscription(BasicPlan, today, None, Active)]
    ensures r.store.members == st.members
    ensures r.store.payments == st.payments && r.store.nextId == st.nextId
  {
    Handled(CreateSubscription(st, phone, BasicPlan, today), Subscribed)
  }

  predicate IsPremium(st: Store, phone: string) {
    match GetSubscription(st, phone)
    case Some(s) => s.plan == PremiumPlan
    case None => false
  }

  /** `UPGRADE`: says so when the plan is premium, whatever its status;
      otherwise describes the premium plan. */
  function ProcessUpgradeInquiry(st: Store, phone: string): (reply: Reply)
    ensures reply == AlreadyPremium <==> phone in st.subscriptions && st.subscriptions[phone].plan == PremiumPlan
    ensures reply != AlreadyPremium ==> reply == UpgradeInfo
  {
    if IsPremium(st, phone) then AlreadyPremium else UpgradeInfo
  }

  /** `REPORT`: available on a premium plan, whatever its status;
      otherwise an upgrade prompt. */
  function ProcessReportRequest(st: Store, phone: string): (reply: Reply)
    ensures reply == ReportReady <==> phone in st.subscriptions && st.subscriptions[phone].plan == PremiumPlan
    ensures reply != ReportReady ==> reply == ReportNeedsUpgrade
  {
    if IsPremium(st, phone) then ReportReady else ReportNeedsUpgrade
  }

  /** A message as dispatch sees it: no white space at either end. */
  predicate Stripped(msg: string) {
    msg == [] || (!IsSpace(msg[0]) && !IsSpace(msg[|msg| - 1]))
  }

  /** The command chain after the gate. On a stripped message the two
      format errors cannot occur: dispatch already saw the keyword, a space
      and, the message being stripped, more text after it. */
  function Dispatch(st: Store, phone: string, msg: string, today: Date): (r: Handled)
    requires Stripped(msg)
    ensures !Writes(r.reply) ==> r.store == st
    ensures r.reply != PayFormatError && r.reply != MissingName && r.reply != SubscribePrompt
    ensures r.reply.PaymentRecorded? ==> StartsWith(msg, "PAY ") && phone in st.members
    ensures r.reply != Subscribed ==> r.store.subscriptions == st.subscriptions
    ensures StartsWith(msg, "PAY ") ==> r == ProcessPayment(st, phone, msg, today)
    ensures msg == "BALANCE" ==> r == Handled(st, ProcessBalanceInquiry(st, phone))
    ensures StartsWith(msg, "REGISTER ") ==> r == ProcessRegistration(st, phone, msg, today)
    ensures msg == "SUBSCRIBE" ==> r == ProcessSubscription(st, phone, today)
    ensures msg == "UPGRADE" ==> r == Handled(st, ProcessUpgradeInquiry(st, phone))
    ensures msg == "REPORT" ==> r == Handled(st, ProcessReportRequest(st, phone))
    ensures msg == "HELP" ==> r == Handled(st, HelpText)
    ensures Classify(msg) == UnknownCmd ==> r == Handled(st, UnknownCommand)
  {
    match Classify(msg)
    case PayCmd =>
      KeywordWords(msg, "PAY");
      ProcessPayment(st, phone, msg, today)
    case BalanceCmd => Handled(st, ProcessBalanceInquiry(st, phone))
    case RegisterCmd =>
      assert msg[8] == ' ';
      ProcessRegistration(st, phone, msg, today)
    case SubscribeCmd => ProcessSubscription(st, phone, today)
    case UpgradeCmd => Handled(st, ProcessUpgradeInquiry(st, phone))
    case ReportCmd => Handled(st, ProcessReportRequest(st, phone))
    case HelpCmd => Handled(st, HelpText)
    case UnknownCmd => Handled(st, UnknownCommand)
  }

  /** One inbound message. A phone without a subscription row is answered
      with the subscribe prompt unless the message starts with SUBSCRIBE;
      otherwise the first matching command runs. */
  function HandleMessage(st: Store, sender: string, body: string, today: Date): (r: Handled)
    ensures var phone := PhoneOf(sender);
            var msg := Normalize(body);
            phone !in st.subscriptions && !StartsWith(msg, "SUBSCRIBE") ==> r == Handled(st, SubscribePrompt)
    ensures PhoneOf(sender) in st.subscriptions || StartsWith(Normalize(body), "SUBSCRIBE") ==>
      r == Dispatch(st, PhoneOf(sender), Normalize(body), today)
    ensures r.reply.PaymentRecorded? ==> PhoneOf(sender) in st.members
    ensures !Writes(r.reply) ==> r.store == st
    ensures r.reply != PayFormatError && r.reply != MissingName
  {
    var phone := PhoneOf(sender);
    var msg := Normalize(body);
    if GetSubscription(st, phone).None? && !StartsWith(msg, "SUBSCRIBE") then
      Handled(st, SubscribePrompt)
    else
      Dispatch(st, phone, msg, today)
  }
}

=== FILE: bot_facts.dfy ===
/** Properties of the interpreter that span several messages or relate its
    input normalisation to its behaviour. */
module BotFacts {
  import opened Wrappers
  import opened Text
  import opened Amount
  import opened Ledger
  import opened Bot

  /** The subscribe prompt is given exactly when the gate closes: a phone
      with any subscription row, active or not, always gets past it. */
  lemma GateExactly(st: Store, sender: string, body: string, today: Date)
    ensures HandleMessage(st, sender, body, today).reply == SubscribePrompt
        <==> PhoneOf(sender) !in st.subscriptions && !StartsWith(Normalize(body), "SUBSCRIBE")
  {
    var msg := Normalize(body);
    if PhoneOf(sender) in st.subscriptions || StartsWith(msg, "SUBSCRIBE") {
    }
  }

  /** A message only ever touches the records of its own sender: other
      phones keep their member and subscription rows, and the payment table
      either stays or gains one contribution of the sender. */
  lemma OnlySenderChanges(st: Store, sender: string, body: string, today: Date)
    ensures var r := HandleMessage(st, sender, body, today);
            && (forall q :: q != PhoneOf(sender) ==>
                  && (q in r.store.members <==> q in st.members)
                  && (q in st.members ==> r.store.members[q] == st.members[q])
                  && (q in r.store.subscriptions <==> q in st.subscriptions)
                  && (q in st.subscriptions ==> r.store.subscriptions[q] == st.subscriptions[q]))
            && (r.store.payments == st.payments
                || (r.reply.PaymentRecorded?
                    && r.store.payments == st.payments + [Payment(st.nextId, PhoneOf(sender), r.reply.amount, today, ContributionKind, "")]))
  {
    var phone := PhoneOf(sender);
    var msg := Normalize(body);
    if phone in st.subscriptions || StartsWith(msg, "SUBSCRIBE") {
      DispatchOnlyPhoneChanges(st, phone, msg, today);
    }
  }

  lemma DispatchOnlyPhoneChanges(st: Store, phone: string, msg: string, today: Date)
    requires Stripped(msg)
    ensures var r := Dispatch(st, phone, msg, today);
            && (forall q :: q != phone ==>
                  && (q in r.store.members <==> q in st.members)
                  && (q in st.members ==> r.store.members[q] == st.members[q])
                  && (q in r.store.subscriptions <==> q in st.subscriptions)
                  && (q in st.subscriptions ==> r.store.subscriptions[q] == st.subscriptions[q]))
            && (r.store.payments == st.payments
                || (r.reply.PaymentRecorded?
                    && r.store.payments == st.payments + [Payment(st.nextId, phone, r.reply.amount, today, ContributionKind, "")]))
  {
    if Classify(msg) == PayCmd {
      KeywordWords(msg, "PAY");
    }
  }

  lemma NormalizeIgnoresCase(body: string)
    ensures Normalize(Upper(body)) == Normalize(body)
  {
    StripUpper(body);
    UpperIdempotent(Strip(body));
  }

  /** Commands are case-insensitive, names included: a message and its
      upper-cased form are handled identically. */
  lemma MessageIgnoresCase(st: Store, sender: string, body: string, today: Date)
    ensures HandleMessage(st, sender, Upper(body), today) == HandleMessage(st, sender, body, today)
  {
    NormalizeIgnoresCase(body);
  }

  /** The registered name is the title case of what the user typed after
      `REGISTER `, whatever its case. */
  lemma RegisteredNameIgnoresCase(rest: string)
    ensures Title(Upper(rest)) == Title(rest)
  {
    TitleFromIgnoresCase(rest, false);
  }

  /** A sender address `whatsapp:<phone>` maps to `<phone>` when the phone
      itself does not contain the prefix. */
  lemma PrefixedSender(phone: string)
    requires !Contains(phone, ChannelPrefix)
    ensures PhoneOf(ChannelPrefix + phone) == phone
  {
    var s := ChannelPrefix + phone;
    assert s[..|ChannelPrefix|] == ChannelPrefix;
    assert s[|ChannelPrefix|..] == phone;
    RemoveAllAbsent(phone, ChannelPrefix);
  }

  /** Registering twice: the second attempt is refused and changes nothing. */
  lemma RegisterTwice(st: Store, sender: string, body: string, body2: string, today: Date)
    requires HandleMessage(st, sender, body, today).reply.Welcome?
    requires Classify(Normalize(body2)) == RegisterCmd
    ensures var r := HandleMessage(st, sender, body, today);
            HandleMessage(r.store, sender, body2, today) == Handled(r.store, AlreadyRegistered)
  {
    var r := HandleMessage(st, sender, body, today);
    WelcomeStore(st, sender, body, today);
    var msg2 := Normalize(body2);
    PrefixAt(msg2, "REGISTER ", 8);
  }

  /** After a welcome the sender is a member and still has its subscription row. */
  lemma WelcomeStore(st: Store, sender: string, body: string, today: Date)
    requires HandleMessage(st, sender, body, today).reply.Welcome?
    ensures var r := HandleMessage(st, sender, body, today);
            PhoneOf(sender) in r.store.members && PhoneOf(sender) in r.store.subscriptions
  {
    var phone := PhoneOf(sender);
    var msg := Normalize(body);
    var r := HandleMessage(st, sender, body, today);
    assert r == Dispatch(st, phone, msg, today);
    assert Classify(msg) == RegisterCmd;
    PrefixesDiffer(msg, "REGISTER ", "SUBSCRIBE", 0);
  }

  // ---------------------------------------------------------------------
  // Routing: the two steps of HandleMessage taken one at a time

  /** A message that fails the gate is answered with the subscribe prompt. */
  lemma Gated(st: Store, sender: string, body: string, msg: string, today: Date)
    requires Normalize(body) == msg
    requires PhoneOf(sender) !in st.subscriptions && !StartsWith(msg, "SUBSCRIBE")
    ensures HandleMessage(st, sender, body, today) == Handled(st, SubscribePrompt)
  {
  }

  /** A command already trimmed and in upper case is left as it is. */
  lemma NormalizeCommand(s: string)
    requires s == [] || (!IsSpace(s[0]) && !IsSpace(s[|s| - 1]))
    requires forall k :: 0 <= k < |s| ==> !IsLower(s[k])
    ensures Normalize(s) == s
  {
    StripClean(s);
    UpperClean(s);
  }

  lemma ClassifyLiterals()
    ensures Classify("BALANCE") == BalanceCmd
    ensures Classify("SUBSCRIBE") == SubscribeCmd
    ensures Classify("SUBSCRIBEX") == UnknownCmd
  {
    DiffersAt("BALANCE", "PAY ", 0);
    DiffersAt("BALANCE", "REGISTER ", 0);
    DiffersAt("SUBSCRIBE", "PAY ", 0);
    DiffersAt("SUBSCRIBE", "REGISTER ", 0);
    DiffersAt("SUBSCRIBEX", "PAY ", 0);
    DiffersAt("SUBSCRIBEX", "REGISTER ", 0);
  }

  /** BALANCE, once past the gate, is the balance inquiry. */
  lemma BalanceRouted(st: Store, sender: string, today: Date)
    requires PhoneOf(sender) in st.subscriptions
    ensures HandleMessage(st, sender, "BALANCE", today)
         == Handled(st, ProcessBalanceInquiry(st, PhoneOf(sender)))
  {
    NormalizeCommand("BALANCE");
    ClassifyLiterals();
  }

  /** A PAY message, once past the gate, is the payment handler. */
  lemma PayRouted(st: Store, sender: string, body: string, msg: string, today: Date)
    requires Normalize(body) == msg && Classify(msg) == PayCmd
    requires PhoneOf(sender) in st.subscriptions
    ensures HandleMessage(st, sender, body, today) == ProcessPayment(st, PhoneOf(sender), msg, today)
  {
  }

  /** `pay 500` and `PAY abc` as the interpreter reads them. */
  lemma PayFiveHundredNormal()
    ensures Normalize("pay 500") == "PAY 500"
  {
    StripClean("pay 500");
    assert Upper("pay 500") == "PAY 500";
  }

  lemma PayFiveHundredWords()
    ensures Words("PAY 500") == ["PAY", "500"]
  {
    TwoWords("PAY", "500");
    assert "PAY 500" == "PAY" + " " + "500";
  }

  lemma FiveHundredParses()
    ensures ParseAmount("500") == Some(500.0)
  {
    assert Decimal(500) == "500";
    ParseDecimal(500);
  }

  lemma LettersDoNotParse()
    ensures ParseAmount("ABC") == None
  {
  }

  lemma PayNotANumberNormal()
    ensures Normalize("PAY abc") == "PAY ABC"
  {
    StripClean("PAY abc");
    assert Upper("PAY abc") == "PAY ABC";
  }

  lemma PayNotANumberWords()
    ensures Words("PAY ABC") == ["PAY", "ABC"]
  {
    TwoWords("PAY", "ABC");
    assert "PAY ABC" == "PAY" + " " + "ABC";
  }

  /** Any message starting with `PAY ` is classified as a payment. */
  lemma PayClassified(msg: string)
    requires StartsWith(msg, "PAY ")
    ensures Classify(msg) == PayCmd
  {
  }

  // ---------------------------------------------------------------------
  // Conversations

  /** After a successful PAY, BALANCE from the same sender shows the balance
      the payment reply reported. */
  lemma PayThenBalance(st: Store, sender: string, body: string, today: Date)
    requires HandleMessage(st, sender, body, today).reply.PaymentRecorded?
    ensures var r := HandleMessage(st, sender, body, today);
            var b := HandleMessage(r.store, sender, "BALANCE", today);
            b.store == r.store
            && b.reply == BalanceInfo(st.members[PhoneOf(sender)].name, r.reply.newBalance)
  {
    var r := HandleMessage(st, sender, body, today);
    PaymentStore(st, sender, body, today);
    BalanceRouted(r.store, sender, today);
  }

  /** After a recorded payment the sender keeps its name and subscription
      row, and its balance is the one the reply reported. */
  lemma PaymentStore(st: Store, sender: string, body: string, today: Date)
    requires HandleMessage(st, sender, body, today).reply.PaymentRecorded?
    ensures var r := HandleMessage(st, sender, body, today);
            var phone := PhoneOf(sender);
            && phone in r.store.subscriptions && phone in r.store.members
            && r.store.members[phone].name == st.members[phone].name
            && r.store.members[phone].balance == r.reply.newBalance
  {
    PaymentRouted(st, sender, body, today);
    var r := ProcessPayment(st, PhoneOf(sender), Normalize(body), today);
    assert r.reply.PaymentRecorded?;
  }

  /** A recorded payment came through the gate on a subscription row and
      was handled by the PAY handler. */
  lemma PaymentRouted(st: Store, sender: string, body: string, today: Date)
    requires HandleMessage(st, sender, body, today).reply.PaymentRecorded?
    ensures PhoneOf(sender) in st.subscriptions
    ensures HandleMessage(st, sender, body, today) == ProcessPayment(st, PhoneOf(sender), Normalize(body), today)
  {
    var r := HandleMessage(st, sender, body, today);
    var phone := PhoneOf(sender);
    var msg := Normalize(body);
    assert r == Dispatch(st, phone, msg, today) && StartsWith(msg, "PAY ");
    PrefixesDiffer(msg, "PAY ", "SUBSCRIBE", 0);
    PayClassified(msg);
  }

  /** SUBSCRIBE always reaches the subscription handler. */
  lemma SubscribeRouted(st: Store, sender: string, today: Date)
    ensures HandleMessage(st, sender, "SUBSCRIBE", today) == ProcessSubscription(st, PhoneOf(sender), today)
  {
    NormalizeCommand("SUBSCRIBE");
    ClassifyLiterals();
  }

  /** BALANCE from a phone without a subscription row is stopped at the gate. */
  lemma BalanceGated(st: Store, sender: string, today: Date)
    requires PhoneOf(sender) !in st.subscriptions
    ensures HandleMessage(st, sender, "BALANCE", today) == Handled(st, SubscribePrompt)
  {
    NormalizeCommand("BALANCE");
    DiffersAt("BALANCE", "SUBSCRIBE", 0);
    Gated(st, sender, "BALANCE", "BALANCE", today);
  }

  /** Without a subscription BALANCE is refused whatever the registration;
      after SUBSCRIBE the same phone, still unregistered, is asked to
      register instead. */
  lemma SubscribeThenBalance(st: Store, phone: string, today: Date)
    requires PhoneOf(phone) == phone
    requires phone !in st.subscriptions && phone !in st.members
    ensures HandleMessage(st, phone, "BALANCE", today) == Handled(st, SubscribePrompt)
    ensures var s := HandleMessage(st, phone, "SUBSCRIBE", today);
            s.reply == Subscribed
            && HandleMessage(s.store, phone, "BALANCE", today) == Handled(s.store, NotRegistered)
  {
    BalanceGated(st, phone, today);
    SubscribeRouted(st, phone, today);
    var s := HandleMessage(st, phone, "SUBSCRIBE", today);
    BalanceRouted(s.store, phone, today);
  }

  /** `pay 500` from a member holding 1000 records 500 and reports 1500. */
  lemma PayFiveHundred(st: Store, phone: string, today: Date)
    requires PhoneOf(phone) == phone
    requires phone in st.subscriptions && phone in st.members
    requires st.members[phone].balance == 1000.0
    ensures var r := HandleMessage(st, phone, "pay 500", today);
            r.reply == PaymentRecorded(500.0, 1500.0)
            && r.store.payments == st.payments + [Payment(st.nextId, phone, 500.0, today, ContributionKind, "")]
  {
    PayFiveHundredRouted(st, phone, today);
  }

  lemma PayFiveHundredRouted(st: Store, phone: string, today: Date)
    requires PhoneOf(phone) == phone && phone in st.subscriptions
    ensures HandleMessage(st, phone, "pay 500", today) == PayAmount(st, phone, 500.0, today)
  {
    PayFiveHundredNormal();
    PayFiveHundredWords();
    PayClassified("PAY 500");
    PayRouted(st, phone, "pay 500", "PAY 500", today);
    FiveHundredParses();
  }

  /** `PAY abc` is refused as an invalid amount and changes nothing. */
  lemma PayNotANumber(st: Store, phone: string, today: Date)
    requires PhoneOf(phone) == phone
    requires phone in st.subscriptions
    ensures HandleMessage(st, phone, "PAY abc", today) == Handled(st, InvalidAmount)
  {
    PayNotANumberNormal();
    PayNotANumberWords();
    PayClassified("PAY ABC");
    PayRouted(st, phone, "PAY abc", "PAY ABC", today);
    LettersDoNotParse();
  }

  /** `SUBSCRIBEX` gets past the gate of an unsubscribed phone (it starts
      with SUBSCRIBE) but is not a command. */
  lemma SubscribeSuffixIsUnknown(st: Store, phone: string, today: Date)
    requires PhoneOf(phone) == phone
    requires phone !in st.subscriptions
    ensures HandleMessage(st, phone, "SUBSCRIBEX", today) == Handled(st, UnknownCommand)
  {
    NormalizeCommand("SUBSCRIBEX");
    SubscribeSuffixPasses();
    ClassifyLiterals();
  }

  lemma SubscribeSuffixPasses()
    ensures StartsWith("SUBSCRIBEX", "SUBSCRIBE")
  {
    assert "SUBSCRIBEX"[..9] == "SUBSCRIBE";
  }
}

=== FILE: ledger.dfy ===
/** The member, payment and subscription tables and their operations,
    over an immutable store: members and subscriptions keyed by phone, the
    payment table as a sequence in insertion order, and the next value of
    the payment id counter. Every operation is assumed to reach the
    database; the clock is a parameter. */
module Ledger {
  import opened Wrappers
  import opened Order

  /** A calendar day. The database stores ISO `YYYY-MM-DD` text, whose text
      order is this order for four-digit years. */
  datatype Date = Date(year: int, month: int, day: int)

  predicate DateLe(a: Date, b: Date) {
    || a.year < b.year
    || (a.year == b.year && (a.month < b.month || (a.month == b.month && a.day <= b.day)))
  }

  predicate SameMonth(a: Date, b: Date) {
    a.year == b.year && a.month == b.month
  }

  const Active := "active"
  const ContributionKind := "contribution"
  const SubscriptionKind := "subscription"
  const BasicPlan := "basic"
  const PremiumPlan := "premium"

  datatype Member = Member(
    name: string,
    balance: real,
    lastPayment: Option<Date>,
    joinDate: Date,
    status: string)

  datatype Payment = Payment(
    id: nat,
    phone: string,
    amount: real,
    date: Date,
    kind: string,
    description: string)

  datatype Subscription = Subscription(
    plan: string,
    startDate: Date,
    endDate: Option<Date>,
    status: string)

  datatype Store = Store(
    members: map<string, Member>,
    subscriptions: map<string, Subscription>,
    payments: seq<Payment>,
    nextId: nat)

  /** A freshly initialised database: empty tables, ids counting from 1. */
  function EmptyStore(): Store {
    Store(map[], map[], [], 1)
  }

  /** Payment ids are handed out in increasing order and never reused. */
  ghost predicate IdsIssued(st: Store) {
    && IdsIncreasing(st.payments)
    && (forall i :: 0 <= i < |st.payments| ==> st.payments[i].id < st.nextId)
  }

  /** The result of a write that reports success as a flag. */
  datatype Outcome = Outcome(store: Store, ok: bool)

  // ---------------------------------------------------------------------
  // Members

  /** Inserts a member; the phone is the primary key, so an existing phone
      makes the insert fail and nothing changes. */
  function CreateMember(st: Store, phone: string, name: string, initialBalance: real, today: Date): (r: Outcome)
    ensures r.ok <==> phone !in st.members
    ensures !r.ok ==> r.store == st
    ensures r.ok ==> && phone in r.store.members
                     && r.store.members[phone].name == name
                     && r.store.members[phone].balance == initialBalance
                     && r.store.members[phone].lastPayment == None
                     && r.store.members[phone].joinDate == today
                     && r.store.members[phone].status == Active
    ensures r.store.members.Keys == st.members.Keys + {phone}
    ensures forall q :: q in st.members ==> r.store.members[q] == st.members[q]
    ensures r.store.subscriptions == st.subscriptions
    ensures r.store.payments == st.payments && r.store.nextId == st.nextId
  {
    if phone in st.members then Outcome(st, false)
    else
      var m := Member(name, initialBalance, None, today, Active);
      Outcome(st.(members := st.members[phone := m]), true)
  }

  function GetMember(st: Store, phone: string): (m: Option<Member>)
    ensures m.Some? <==> phone in st.members
    ensures m.Some? ==> m.value == st.members[phone]
  {
    if phone in st.members then Some(st.members[phone]) else None
  }

  /** The columns `update_member` may name, each present or absent. */
  datatype MemberPatch = MemberPatch(
    name: Option<string>,
    balance: Option<real>,
    lastPayment: Option<Option<Date>>,
    joinDate: Option<Date>,
    status: Option<string>)
  {
    predicate IsEmpty() {
      name.None? && balance.None? && lastPayment.None? && joinDate.None? && status.None?
    }
  }

  /** A patch naming only the balance. */
  function BalancePatch(balance: real): MemberPatch {
    MemberPatch(None, Some(balance), None, None, None)
  }

  function Patched(m: Member, patch: MemberPatch): Member {
    Member(
      patch.name.GetOr(m.name),
      patch.balance.GetOr(m.balance),
      patch.lastPayment.GetOr(m.lastPayment),
      patch.joinDate.GetOr(m.joinDate),
      patch.status.GetOr(m.status))
  }

  /** A partial update: fails without a field to set, otherwise succeeds
      exactly when a row matched. Only the named columns change. */
  function UpdateMember(st: Store, phone: string, patch: MemberPatch): (r: Outcome)
    ensures r.ok <==> !patch.IsEmpty() && phone in st.members
    ensures !r.ok ==> r.store == st
    ensures r.store.members.Keys == st.members.Keys
    ensures forall q :: q in st.members && q != phone ==> r.store.members[q] == st.members[q]
    ensures r.ok ==>
      var before := st.members[phone];
      var after := r.store.members[phone];
      && (after.name == if patch.name.Some? then patch.name.value else before.name)
      && (after.balance == if patch.balance.Some? then patch.balance.value else before.balance)
      && (after.lastPayment == if patch.lastPayment.Some? then patch.lastPayment.value else before.lastPayment)
      && (after.joinDate == if patch.joinDate.Some? then patch.joinDate.value else before.joinDate)
      && (after.status == if patch.status.Some? then patch.status.value else before.status)
    ensures r.store.subscriptions == st.subscriptions
    ensures r.store.payments == st.payments && r.store.nextId == st.nextId
  {
    if patch.IsEmpty() || phone !in st.members then Outcome(st, false)
    else Outcome(st.(members := st.members[phone := Patched(st.members[phone], patch)]), true)
  }

  /** The payments whose phone is not `phone`, in their original order. */
  function PaymentsNotOf(ps: seq<Payment>, phone: string): (r: seq<Payment>)
    ensures forall p :: p in r <==> p in ps && p.phone != phone
    ensures |r| <= |ps|
  {
    if ps == [] then []
    else if ps[0].phone == phone then PaymentsNotOf(ps[1..], phone)
    else [ps[0]] + PaymentsNotOf(ps[1..], phone)
  }

  ghost predicate IdsIncreasing(ps: seq<Payment>) {
    forall i, j :: 0 <= i < j < |ps| ==> ps[i].id < ps[j].id
  }

  lemma {:induction false} PaymentsNotOfKeepsOrder(ps: seq<Payment>, phone: string)
    requires IdsIncreasing(ps)
    ensures IdsIncreasing(PaymentsNotOf(ps, phone))
  {
    if ps != [] {
      assert IdsIncreasing(ps[1..]) by {
        forall i, j | 0 <= i < j < |ps| - 1
          ensures ps[1..][i].id < ps[1..][j].id
        {
          assert ps[1..][i] == ps[i + 1] && ps[1..][j] == ps[j + 1];
        }
      }
      PaymentsNotOfKeepsOrder(ps[1..], phone);
      var rest := PaymentsNotOf(ps[1..], phone);
      if ps[0].phone != phone {
        forall p | p in rest
          ensures ps[0].id < p.id
        {
          var k :| 0 <= k < |ps| - 1 && ps[1..][k] == p;
          assert ps[k + 1] == p;
        }
        ConsIncreasing(ps[0], rest);
      }
    }
  }

  lemma ConsIncreasing(x: Payment, ps: seq<Payment>)
    requires IdsIncreasing(ps)
    requires forall p :: p in ps ==> x.id < p.id
    ensures IdsIncreasing([x] + ps)
  {
    var r := [x] + ps;
    forall i, j | 0 <= i < j < |r|
      ensures r[i].id < r[j].id
    {
      assert r[j] == ps[j - 1];
      if i > 0 {
        assert r[i] == ps[i - 1];
      }
    }
  }

  /** Removes a member together with its payments and its subscription.
      The payments and the subscription of the phone go even when no member
      row exists; the result says whether a member row was removed. */
  function DeleteMember(st: Store, phone: string): (r: Outcome)
    ensures r.ok <==> phone in st.members
    ensures phone !in r.store.members && phone !in r.store.subscriptions
    ensures forall p :: p in r.store.payments ==> p.phone != phone
    ensures r.store.members == st.members - {phone}
    ensures r.store.subscriptions == st.subscriptions - {phone}
    ensures forall p :: p in r.store.payments <==> p in st.payments && p.phone != phone
    ensures r.store.nextId == st.nextId
  {
    var st' := st.(
      members := st.members - {phone},
      subscriptions := st.subscriptions - {phone},
      payments := PaymentsNotOf(st.payments, phone));
    Outcome(st', phone in st.members)
  }

  /** The cascade keeps the surviving payment ids increasing and below the
      counter, which it does not reset. */
  lemma DeleteMemberKeepsIds(st: Store, phone: string)
    requires IdsIssued(st)
    ensures IdsIssued(DeleteMember(st, phone).store)
  {
    PaymentsNotOfKeepsOrder(st.payments, phone);
    var ps := DeleteMember(st, phone).store.payments;
    forall i | 0 <= i < |ps|
      ensures ps[i].id < st.nextId
    {
      assert ps[i] in st.payments;
    }
  }

  // ---------------------------------------------------------------------
  // Payments

  /** Records a payment with the next id and today's date. Only a
      `contribution` moves money: it raises the member's balance by the
      amount and stamps the last payment date. A payment for a phone
      without a member is still recorded. */
  function AddPayment(st: Store, phone: string, amount: real, kind: string, description: string, today: Date): (r: Store)
    ensures r.payments == st.payments + [Payment(st.nextId, phone, amount, today, kind, description)]
    ensures r.nextId == st.nextId + 1
    ensures r.subscriptions == st.subscriptions
    ensures r.members.Keys == st.members.Keys
    ensures forall q :: q in st.members && (q != phone || kind != ContributionKind) ==> r.members[q] == st.members[q]
    ensures kind == ContributionKind && phone in st.members ==>
      r.members[phone] == st.members[phone].(balance := st.members[phone].balance + amount, lastPayment := Some(today))
    ensures IdsIssued(st) ==> IdsIssued(r)
  {
    var payment := Payment(st.nextId, phone, amount, today, kind, description);
    var st' := st.(payments := st.payments + [payment], nextId := st.nextId + 1);
    if kind == ContributionKind && phone in st.members then
      var m := st.members[phone];
      st'.(members := st.members[phone := m.(balance := m.balance + amount, lastPayment := Some(today))])
    else st'
  }

  /** Sum of the amounts of the payments `wanted` selects. */
  function SumWhere(ps: seq<Payment>, wanted: Payment -> bool): real {
    if ps == [] then 0.0
    else SumWhere(ps[..|ps| - 1], wanted) + (if wanted(ps[|ps| - 1]) then ps[|ps| - 1].amount else 0.0)
  }

  /** A filter that selects no payment sums and counts to zero. */
  lemma {:induction false} NoneSelected(ps: seq<Payment>, wanted: Payment -> bool)
    ensures (forall p :: p in ps ==> !wanted(p)) ==> SumWhere(ps, wanted) == 0.0 && CountWhere(ps, wanted) == 0
  {
    if ps != [] && forall p :: p in ps ==> !wanted(p) {
      var init := ps[..|ps| - 1];
      assert forall p :: p in init ==> p in ps;
      NoneSelected(init, wanted);
    }
  }

  /** Number of elements of `xs` that `wanted` selects. */
  function CountWhere<T>(xs: seq<T>, wanted: T -> bool): (n: nat)
    ensures n <= |xs|
  {
    if xs == [] then 0
    else CountWhere(xs[..|xs| - 1], wanted) + (if wanted(xs[|xs| - 1]) then 1 else 0)
  }

  lemma {:induction false} SumWhereAppend(a: seq<Payment>, b: seq<Payment>, wanted: Payment -> bool)
    ensures SumWhere(a + b, wanted) == SumWhere(a, wanted) + SumWhere(b, wanted)
    decreases |b|
  {
    if b != [] {
      assert (a + b)[..|a + b| - 1] == a + b[..|b| - 1];
      SumWhereAppend(a, b[..|b| - 1], wanted);
    } else {
      assert a + b == a;
    }
  }

  lemma {:induction false} CountWhereAppend<T>(a: seq<T>, b: seq<T>, wanted: T -> bool)
    ensures CountWhere(a + b, wanted) == CountWhere(a, wanted) + CountWhere(b, wanted)
    decreases |b|
  {
    if b != [] {
      assert (a + b)[..|a + b| - 1] == a + b[..|b| - 1];
      CountWhereAppend(a, b[..|b| - 1], wanted);
    } else {
      assert a + b == a;
    }
  }

  predicate IsContribution(p: Payment) { p.kind == ContributionKind }

  /** What a member's payment history says the balance moved by:
      contributions in, subscription fees out, other kinds neither. */
  function Net(ps: seq<Payment>, phone: string): real {
    SumWhere(ps, OfKind(phone, ContributionKind)) - SumWhere(ps, OfKind(phone, SubscriptionKind))
  }

  /** Selects the payments of one phone and one kind. */
  function OfKind(phone: string, kind: string): Payment -> bool {
    (p: Payment) => p.phone == phone && p.kind == kind
  }

  lemma NetAppend(a: seq<Payment>, b: seq<Payment>, phone: string)
    ensures Net(a + b, phone) == Net(a, phone) + Net(b, phone)
  {
    SumWhereAppend(a, b, OfKind(phone, ContributionKind));
    SumWhereAppend(a, b, OfKind(phone, SubscriptionKind));
  }

  /** Selects the contributions dated in the month of `now`. */
  function ContributionIn(now: Date): Payment -> bool {
    (p: Payment) => IsContribution(p) && SameMonth(p.date, now)
  }

  datatype Summary = Summary(total: real, monthly: real, count: nat)

  /** Aggregates over contribution payments only (members or not): their
      total, the part dated in the month of `now`, and their number. */
  function PaymentSummary(st: Store, now: Date): (s: Summary)
    ensures s.count <= |st.payments|
    ensures (forall p :: p in st.payments ==> !IsContribution(p)) ==> s == Summary(0.0, 0.0, 0)
  {
    NoneSelected(st.payments, IsContribution);
    NoneSelected(st.payments, ContributionIn(now));
    Summary(
      SumWhere(st.payments, IsContribution),
      SumWhere(st.payments, ContributionIn(now)),
      CountWhere(st.payments, IsContribution))
  }

  /** A row of `get_payments`: a payment joined with its member's name. */
  datatype PaymentRow = PaymentRow(
    id: nat,
    phone: string,
    name: string,
    amount: real,
    date: Date,
    kind: string,
    description: string)

  function PaymentOf(row: PaymentRow): Payment {
    Payment(row.id, row.phone, row.amount, row.date, row.kind, row.description)
  }

  /** The phone filter of `get_payments`: absent or empty means all. */
  predicate Selected(filter: Option<string>, phone: string) {
    filter.None? || filter.value == "" || filter.value == phone
  }

  /** Whether `get_payments` lists a payment: the join with the member
      table drops payments without a member. */
  predicate Listed(st: Store, filter: Option<string>, p: Payment) {
    p.phone in st.members && Selected(filter, p.phone)
  }

  function ListedBy(st: Store, filter: Option<string>): Payment -> bool {
    (p: Payment) => Listed(st, filter, p)
  }

  function Joined(st: Store, filter: Option<string>, ps: seq<Payment>): (rows: seq<PaymentRow>)
    ensures |rows| == CountWhere(ps, ListedBy(st, filter))
    ensures forall row :: row in rows ==>
      && PaymentOf(row) in ps
      && Listed(st, filter, PaymentOf(row))
      && row.name == st.members[row.phone].name
    ensures forall p :: p in ps && Listed(st, filter, p) ==>
      PaymentRow(p.id, p.phone, st.members[p.phone].name, p.amount, p.date, p.kind, p.description) in rows
  {
    if ps == [] then []
    else
      var init := ps[..|ps| - 1];
      var p := ps[|ps| - 1];
      assert ps == init + [p];
      var rows := Joined(st, filter, init);
      if Listed(st, filter, p) then
        rows + [PaymentRow(p.id, p.phone, st.members[p.phone].name, p.amount, p.date, p.kind, p.description)]
      else rows
  }

  /** Newest payment first. */
  predicate NewestPaymentFirst(a: PaymentRow, b: PaymentRow) {
    DateLe(b.date, a.date)
  }

  lemma NewestPaymentFirstIsPreorder()
    ensures TotalPreorder(NewestPaymentFirst)
  {
  }

  /** `get_payments`: the joined rows, optionally for one phone, newest
      first. */
  function GetPayments(st: Store, filter: Option<string>): (rows: seq<PaymentRow>)
    ensures SortedBy(rows, NewestPaymentFirst)
    ensures |rows| == CountWhere(st.payments, ListedBy(st, filter))
    ensures forall row :: row in rows ==>
      && PaymentOf(row) in st.payments
      && Listed(st, filter, PaymentOf(row))
      && row.name == st.members[row.phone].name
    ensures forall p :: p in st.payments && Listed(st, filter, p) ==>
      PaymentRow(p.id, p.phone, st.members[p.phone].name, p.amount, p.date, p.kind, p.description) in rows
  {
    NewestPaymentFirstIsPreorder();
    var joined := Joined(st, filter, st.payments);
    var rows := SortBy(joined, NewestPaymentFirst);
    assert forall row :: row in rows <==> row in joined by {
      assert forall row :: row in rows <==> row in multiset(rows);
      assert forall row :: row in joined <==> row in multiset(joined);
    }
    assert |rows| == |multiset(rows)| == |multiset(joined)| == |joined|;
    rows
  }

  // ---------------------------------------------------------------------
  // Subscriptions

  /** Insert-or-replace keyed by phone: afterwards the phone has exactly
      this active subscription, started today and with no end date. */
  function CreateSubscription(st: Store, phone: string, plan: string, today: Date): (r: Store)
    ensures r.subscriptions.Keys == st.subscriptions.Keys + {phone}
    ensures r.subscriptions[phone] == Subscription(plan, today, None, Active)
    ensures forall q :: q in st.subscriptions && q != phone ==> r.subscriptions[q] == st.subscriptions[q]
    ensures r.members == st.members
    ensures r.payments == st.payments && r.nextId == st.nextId
  {
    st.(subscriptions := st.subscriptions[phone := Subscription(plan, today, None, Active)])
  }

  function GetSubscription(st: Store, phone: string): (s: Option<Subscription>)
    ensures s.Some? <==> phone in st.subscriptions
    ensures s.Some? ==> s.value == st.subscriptions[phone]
  {
    if phone in st.subscriptions then Some(st.subscriptions[phone]) else None
  }

  // ---------------------------------------------------------------------
  // Listings over the keyed tables

  datatype MemberRow = MemberRow(phone: string, member: Member)

  predicate ByName(a: MemberRow, b: MemberRow) {
    StrLe(a.member.name, b.member.name)
  }

  lemma ByNameIsPreorder()
    ensures TotalPreorder(ByName)
  {
    forall a: MemberRow, b: MemberRow
      ensures ByName(a, b) || ByName(b, a)
    {
      StrLeTotal(a.member.name, b.member.name);
    }
    forall a: MemberRow, b: MemberRow, c: MemberRow | ByName(a, b) && ByName(b, c)
      ensures ByName(a, c)
    {
      StrLeTransitive(a.member.name, b.member.name, c.member.name);
    }
  }

  /** `get_all_members`: every member once, ordered by name. */
  method GetAllMembers(st: Store) returns (rows: seq<MemberRow>)
    ensures SortedBy(rows, ByName)
    ensures forall r :: r in rows ==> r.phone in st.members && r.member == st.members[r.phone]
    ensures forall p :: p in st.members ==> MemberRow(p, st.members[p]) in rows
    ensures forall i, j :: 0 <= i < j < |rows| ==> rows[i].phone != rows[j].phone
  {
    ByNameIsPreorder();
    rows := [];
    var pending := st.members.Keys;
    while pending != {}
      invariant pending <= st.members.Keys
      invariant SortedBy(rows, ByName)
      invariant forall r :: r in rows ==>
        r.phone in st.members && r.phone !in pending && r.member == st.members[r.phone]
      invariant forall p :: p in st.members && p !in pending ==> MemberRow(p, st.members[p]) in rows
      invariant forall i, j :: 0 <= i < j < |rows| ==> rows[i].phone != rows[j].phone
      decreases pending
    {
      var p :| p in pending;
      var row := MemberRow(p, st.members[p]);
      InsertSorted(row, rows, ByName);
      InsertDistinct(row, rows, ByName, (r: MemberRow) => r.phone);
      rows := Insert(row, rows, ByName);
      pending := pending - {p};
    }
  }

  datatype SubscriptionRow = SubscriptionRow(phone: string, name: string, subscription: Subscription)

  predicate NewestSubscriptionFirst(a: SubscriptionRow, b: SubscriptionRow) {
    DateLe(b.subscription.startDate, a.subscription.startDate)
  }

  lemma NewestSubscriptionFirstIsPreorder()
    ensures TotalPreorder(NewestSubscriptionFirst)
  {
  }

  /** The row `get_all_subscriptions` shows for `phone`: its subscription
      joined with the member's name. */
  predicate SubscriptionListed(st: Store, r: SubscriptionRow) {
    && r.phone in st.subscriptions && r.phone in st.members
    && r.subscription == st.subscriptions[r.phone]
    && r.name == st.members[r.phone].name
  }

  /** `get_all_subscriptions`: the subscriptions whose phone has a member,
      each once with the member's name, newest start date first. */
  method GetAllSubscriptions(st: Store) returns (rows: seq<SubscriptionRow>)
    ensures SortedBy(rows, NewestSubscriptionFirst)
    ensures forall r :: r in rows ==> SubscriptionListed(st, r)
    ensures forall p :: p in st.subscriptions && p in st.members ==>
      SubscriptionRow(p, st.members[p].name, st.subscriptions[p]) in rows
    ensures forall i, j :: 0 <= i < j < |rows| ==> rows[i].phone != rows[j].phone
  {
    NewestSubscriptionFirstIsPreorder();
    rows := [];
    var pending := st.subscriptions.Keys * st.members.Keys;
    while pending != {}
      invariant pending <= st.subscriptions.Keys * st.members.Keys
      invariant SortedBy(rows, NewestSubscriptionFirst)
      invariant forall r :: r in rows ==> SubscriptionListed(st, r) && r.phone !in pending
      invariant forall p :: p in st.subscriptions && p in st.members && p !in pending ==>
        SubscriptionRow(p, st.members[p].name, st.subscriptions[p]) in rows
      invariant forall i, j :: 0 <= i < j < |rows| ==> rows[i].phone != rows[j].phone
      decreases pending
    {
      var p :| p in pending;
      var row := SubscriptionRow(p, st.members[p].name, st.subscriptions[p]);
      InsertSorted(row, rows, NewestSubscriptionFirst);
      InsertDistinct(row, rows, NewestSubscriptionFirst, (r: SubscriptionRow) => r.phone);
      rows := Insert(row, rows, NewestSubscriptionFirst);
      pending := pending - {p};
    }
  }
}

=== FILE: ledger_facts.dfy ===
/** Properties that relate several ledger operations to each other. */
module LedgerFacts {
  import opened Wrappers
  import opened Ledger

  /** A second registration of the same phone fails and leaves exactly the
      store the first one produced. */
  lemma CreateMemberTwice(st: Store, phone: string, name: string, name2: string, b: real, b2: real, today: Date)
    requires phone !in st.members
    ensures var first := CreateMember(st, phone, name, b, today);
            var second := CreateMember(first.store, phone, name2, b2, today);
            first.ok && !second.ok && second.store == first.store
            && GetMember(second.store, phone) == Some(Member(name, b, None, today, Active))
  {
  }

  /** After a delete, nothing of the phone can be read back: no member,
      no subscription, no row in the payment listing. */
  lemma DeleteThenGet(st: Store, phone: string)
    ensures var st' := DeleteMember(st, phone).store;
            && GetMember(st', phone) == None
            && GetSubscription(st', phone) == None
            && forall row :: row in GetPayments(st', None) ==> row.phone != phone
  {
    var st' := DeleteMember(st, phone).store;
    forall row | row in GetPayments(st', None)
      ensures row.phone != phone
    {
      assert PaymentOf(row) in st'.payments;
    }
  }

  function Sum(amounts: seq<real>): real {
    if amounts == [] then 0.0 else Sum(amounts[..|amounts| - 1]) + amounts[|amounts| - 1]
  }

  /** A run of contribution payments by one phone, in order. */
  function Contribute(st: Store, phone: string, amounts: seq<real>, today: Date): Store
    decreases |amounts|
  {
    if amounts == [] then st
    else AddPayment(Contribute(st, phone, amounts[..|amounts| - 1], today), phone, amounts[|amounts| - 1], ContributionKind, "", today)
  }

  /** Contributions add up: the balance rises by their sum, every other
      member stays as it was, and one payment is recorded per amount. */
  lemma {:induction false} ContributeAddsUp(st: Store, phone: string, amounts: seq<real>, today: Date)
    requires phone in st.members
    ensures var st' := Contribute(st, phone, amounts, today);
            && st'.members.Keys == st.members.Keys
            && st'.members[phone].balance == st.members[phone].balance + Sum(amounts)
            && (forall q :: q in st.members && q != phone ==> st'.members[q] == st.members[q])
            && |st'.payments| == |st.payments| + |amounts|
    decreases |amounts|
  {
    if amounts != [] {
      ContributeAddsUp(st, phone, amounts[..|amounts| - 1], today);
    }
  }

  /** From a fresh member with initial balance `b`, contributions of
      a1..an leave the balance at b + a1 + ... + an. */
  lemma FreshMemberBalance(st: Store, phone: string, name: string, b: real, amounts: seq<real>, today: Date)
    requires phone !in st.members
    ensures var st' := Contribute(CreateMember(st, phone, name, b, today).store, phone, amounts, today);
            phone in st'.members && st'.members[phone].balance == b + Sum(amounts)
  {
    ContributeAddsUp(CreateMember(st, phone, name, b, today).store, phone, amounts, today);
  }

  lemma SumWhereSnoc(ps: seq<Payment>, p: Payment, wanted: Payment -> bool)
    ensures SumWhere(ps + [p], wanted) == SumWhere(ps, wanted) + (if wanted(p) then p.amount else 0.0)
    ensures CountWhere(ps + [p], wanted) == CountWhere(ps, wanted) + (if wanted(p) then 1 else 0)
  {
    assert (ps + [p])[..|ps + [p]| - 1] == ps;
  }

  /** A payment moves the summary exactly when it is a contribution: the
      total and count by its amount and one, the monthly figure only when
      it is dated in the current month. The member need not exist. */
  lemma SummaryAfterPayment(st: Store, phone: string, amount: real, kind: string, description: string, today: Date, now: Date)
    ensures var s := PaymentSummary(st, now);
            var s' := PaymentSummary(AddPayment(st, phone, amount, kind, description, today), now);
            if kind == ContributionKind then
              s' == Summary(s.total + amount, s.monthly + (if SameMonth(today, now) then amount else 0.0), s.count + 1)
            else s' == s
  {
    var p := Payment(st.nextId, phone, amount, today, kind, description);
    SumWhereSnoc(st.payments, p, IsContribution);
    SumWhereSnoc(st.payments, p, ContributionIn(now));
  }

  lemma {:induction false} MonthlyAtMostTotal(ps: seq<Payment>, now: Date)
    requires forall p :: p in ps && IsContribution(p) ==> p.amount >= 0.0
    ensures 0.0 <= SumWhere(ps, ContributionIn(now)) <= SumWhere(ps, IsContribution)
  {
    if ps != [] {
      MonthlyAtMostTotal(ps[..|ps| - 1], now);
    }
  }

  /** With non-negative contributions the month's figure lies between zero
      and the all-time total. */
  lemma SummaryBounds(st: Store, now: Date)
    requires forall p :: p in st.payments && IsContribution(p) ==> p.amount >= 0.0
    ensures 0.0 <= PaymentSummary(st, now).monthly <= PaymentSummary(st, now).total
    ensures PaymentSummary(st, now).count <= |st.payments|
  {
    MonthlyAtMostTotal(st.payments, now);
  }

  /** A contribution to a member moves the balance by exactly what it adds
      to the member's payment history, so the two stay in step. */
  lemma ContributionKeepsAccount(st: Store, phone: string, amount: real, description: string, today: Date)
    requires phone in st.members
    ensures var st' := AddPayment(st, phone, amount, ContributionKind, description, today);
            st'.members[phone].balance - st.members[phone].balance
              == Net(st'.payments, phone) - Net(st.payments, phone)
  {
    var p := Payment(st.nextId, phone, amount, today, ContributionKind, description);
    SumWhereSnoc(st.payments, p, OfKind(phone, ContributionKind));
    SumWhereSnoc(st.payments, p, OfKind(phone, SubscriptionKind));
  }

  /** The limit of the accounting invariant: a `subscription` payment
      recorded directly, outside the monthly sweep, lowers the member's
      net by its amount but leaves the balance where it was, so the two
      drift apart. */
  lemma SubscriptionPaymentDrifts(st: Store, phone: string, amount: real, description: string, today: Date)
    requires phone in st.members
    ensures var st' := AddPayment(st, phone, amount, SubscriptionKind, description, today);
            && st'.members[phone] == st.members[phone]
            && Net(st'.payments, phone) == Net(st.payments, phone) - amount
  {
    assert SubscriptionKind[0] != ContributionKind[0];
    var p := Payment(st.nextId, phone, amount, today, SubscriptionKind, description);
    SumWhereSnoc(st.payments, p, OfKind(phone, ContributionKind));
    SumWhereSnoc(st.payments, p, OfKind(phone, SubscriptionKind));
  }

  /** A payment for a phone without a member is recorded and counted in
      the summary, yet no member changes and the joined listing does not
      show it. */
  lemma DanglingPayment(st: Store, phone: string, amount: real, today: Date, now: Date)
    requires phone !in st.members
    ensures var st' := AddPayment(st, phone, amount, ContributionKind, "", today);
            && st'.members == st.members
            && |st'.payments| == |st.payments| + 1
            && PaymentSummary(st', now).count == PaymentSummary(st, now).count + 1
            && |GetPayments(st', None)| == |GetPayments(st, None)|
  {
    var st' := AddPayment(st, phone, amount, ContributionKind, "", today);
    var p := Payment(st.nextId, phone, amount, today, ContributionKind, "");
    SummaryAfterPayment(st, phone, amount, ContributionKind, "", today, now);
    SumWhereSnoc(st.payments, p, ListedBy(st, None));
    CountWhereSame(st'.payments, ListedBy(st', None), ListedBy(st, None));
  }

  lemma {:induction false} CountWhereSame(ps: seq<Payment>, f: Payment -> bool, g: Payment -> bool)
    requires forall p :: p in ps ==> f(p) == g(p)
    ensures CountWhere(ps, f) == CountWhere(ps, g)
  {
    if ps != [] {
      CountWhereSame(ps[..|ps| - 1], f, g);
    }
  }
}

=== FILE: order.dfy ===
/** Orderings used by the store's listings: byte-wise string order (the
    database's default text collation) and an insertion sort
    over any total preorder. */
module Order {

  /** Lexicographic order on strings, character by character. */
  predicate StrLe(a: string, b: string) {
    if a == [] then true
    else if b == [] then false
    else if a[0] != b[0] then a[0] < b[0]
    else StrLe(a[1..], b[1..])
  }

  lemma {:induction false} StrLeTotal(a: string, b: string)
    ensures StrLe(a, b) || StrLe(b, a)
  {
    if a != [] && b != [] && a[0] == b[0] {
      StrLeTotal(a[1..], b[1..]);
    }
  }

  lemma {:induction false} StrLeTransitive(a: string, b: string, c: string)
    requires StrLe(a, b) && StrLe(b, c)
    ensures StrLe(a, c)
  {
    if a != [] && b != [] && c != [] && a[0] == b[0] && b[0] == c[0] {
      StrLeTransitive(a[1..], b[1..], c[1..]);
    }
  }

  /** `before` is total and transitive, so sorting by it is well defined
      up to the order of ties. */
  ghost predicate TotalPreorder<T(!new)>(before: (T, T) -> bool) {
    && (forall a, b :: before(a, b) || before(b, a))
    && (forall a, b, c :: before(a, b) && before(b, c) ==> before(a, c))
  }

  ghost predicate SortedBy<T>(s: seq<T>, before: (T, T) -> bool) {
    forall i, j :: 0 <= i < j < |s| ==> before(s[i], s[j])
  }

  /** Position of the first element that `x` may precede. */
  function InsertionPoint<T>(x: T, s: seq<T>, before: (T, T) -> bool): (k: nat)
    ensures k <= |s|
    ensures forall i :: 0 <= i < k ==> !before(x, s[i])
    ensures k < |s| ==> before(x, s[k])
  {
    if s == [] || before(x, s[0]) then 0 else 1 + InsertionPoint(x, s[1..], before)
  }

  /** `s` with `x` placed in front of the first element it may precede. */
  function Insert<T(!new)>(x: T, s: seq<T>, before: (T, T) -> bool): (r: seq<T>)
    ensures |r| == |s| + 1
    ensures multiset(r) == multiset(s) + multiset{x}
    ensures forall y :: y in r <==> y == x || y in s
  {
    var k := InsertionPoint(x, s, before);
    assert s == s[..k] + s[k..];
    s[..k] + [x] + s[k..]
  }

  /** Where each element of `s` lands once `x` is inserted. */
  lemma InsertPositions<T(!new)>(x: T, s: seq<T>, before: (T, T) -> bool) returns (k: nat)
    ensures k <= |s| && Insert(x, s, before)[k] == x
    ensures forall i :: 0 <= i < k ==> Insert(x, s, before)[i] == s[i]
    ensures forall i :: k < i <= |s| ==> Insert(x, s, before)[i] == s[i - 1]
  {
    k := InsertionPoint(x, s, before);
  }

  /** Inserting an element whose key is new keeps the keys distinct. */
  lemma InsertDistinct<T(!new), K>(x: T, s: seq<T>, before: (T, T) -> bool, key: T -> K)
    requires forall i, j :: 0 <= i < j < |s| ==> key(s[i]) != key(s[j])
    requires forall i :: 0 <= i < |s| ==> key(s[i]) != key(x)
    ensures var r := Insert(x, s, before);
            forall i, j :: 0 <= i < j < |r| ==> key(r[i]) != key(r[j])
  {
    var k := InsertPositions(x, s, before);
    var r := Insert(x, s, before);
    forall i, j | 0 <= i < j < |r|
      ensures key(r[i]) != key(r[j])
    {
      if i != k && j != k {
        var i' := if i < k then i else i - 1;
        var j' := if j < k then j else j - 1;
        assert r[i] == s[i'] && r[j] == s[j'];
      } else if i == k {
        assert r[j] == s[j - 1];
      } else {
        assert r[i] == s[i];
      }
    }
  }

  lemma InsertSorted<T(!new)>(x: T, s: seq<T>, before: (T, T) -> bool)
    requires TotalPreorder(before)
    requires SortedBy(s, before)
    ensures SortedBy(Insert(x, s, before), before)
  {
    var k := InsertionPoint(x, s, before);
    var r := Insert(x, s, before);
    assert r == s[..k] + [x] + s[k..];
    forall i, j | 0 <= i < j < |r|
      ensures before(r[i], r[j])
    {
      if j < k {
        assert r[i] == s[i] && r[j] == s[j];
      } else if j == k {
        assert r[i] == s[i] && r[j] == x;
        assert !before(x, s[i]);
      } else if i == k {
        assert r[j] == s[j - 1] && r[i] == x;
        assert before(x, s[k]);
        if j - 1 > k {
          assert before(s[k], s[j - 1]);
        }
      } else if i < k {
        assert r[i] == s[i] && r[j] == s[j - 1];
      } else {
        assert r[i] == s[i - 1] && r[j] == s[j - 1];
      }
    }
  }

  /** Insertion sort: a permutation of `s` ordered by `before`. */
  function SortBy<T(!new)>(s: seq<T>, before: (T, T) -> bool): (r: seq<T>)
    requires TotalPreorder(before)
    ensures multiset(r) == multiset(s)
    ensures SortedBy(r, before)
  {
    if s == [] then []
    else
      var rest := SortBy(s[1..], before);
      InsertSorted(s[0], rest, before);
      MultisetCons(s);
      Insert(s[0], rest, before)
  }

  lemma MultisetCons<T>(s: seq<T>)
    requires s != []
    ensures multiset(s) == multiset(s[1..]) + multiset{s[0]}
  {
    assert s == [s[0]] + s[1..];
  }
}

=== FILE: sweeps.dfy ===
/** The scheduled sweeps over the whole ledger: the monthly subscription
    charge, the weekly and the on-demand contribution reminders, and the
    choice of members who receive the weekly report. Outbound messages are
    collected in an outbox; whether the gateway accepted a message is an
    oracle `delivered`. */
module Sweeps {
  import opened Wrappers
  import opened Text
  import opened Order
  import opened Ledger

  const BasicFee: real := 100.0
  const PremiumFee: real := 300.0

  /** The monthly fee: 100 for the basic plan and 300 for every other plan
      name, premium or not. */
  function Fee(plan: string): (fee: real)
    ensures fee == BasicFee <==> plan == BasicPlan
    ensures fee == PremiumFee <==> plan != BasicPlan
  {
    if plan == BasicPlan then BasicFee else PremiumFee
  }

  /** What a notice tells its recipient; the wording around these values
      is not modelled. */
  datatype Notice =
    | WeeklyReminder(name: string, balance: real, lastPayment: Option<Date>)
    | ContributionReminder(name: string, balance: real)
    | Charged(name: string, plan: string, fee: real, newBalance: real)
    | Insufficient(name: string, plan: string, fee: real, balance: real)

  datatype Outbound = Outbound(to: string, notice: Notice)

  predicate DistinctPhones(rows: seq<SubscriptionRow>) {
    forall i, j :: 0 <= i < j < |rows| ==> rows[i].phone != rows[j].phone
  }

  // ---------------------------------------------------------------------
  // Monthly subscription charge

  /** The state the monthly sweep carries from one subscription to the
      next: the ledger, the messages sent so far and the number of fees
      collected. */
  datatype Billing = Billing(store: Store, outbox: seq<Outbound>, processed: nat)

  function FeeDescription(plan: string): string {
    "Monthly " + plan + " subscription"
  }

  /** A listed subscription is charged when it is active, its member
      exists, and the member's balance covers the fee. */
  predicate Due(st: Store, row: SubscriptionRow) {
    && row.subscription.status == Active
    && row.phone in st.members
    && st.members[row.phone].balance >= Fee(row.subscription.plan)
  }

  /** The message about one active subscription of a member: the charge
      and the new balance when the balance covers the fee, otherwise a
      warning with the fee and the balance. The plan is shown title-cased. */
  function BillingNotice(m: Member, plan: string): (n: Notice)
    ensures n.Charged? <==> m.balance >= Fee(plan)
    ensures n.Charged? ==> n == Charged(m.name, Title(plan), Fee(plan), m.balance - Fee(plan))
    ensures n.Insufficient? <==> m.balance < Fee(plan)
    ensures n.Insufficient? ==> n == Insufficient(m.name, Title(plan), Fee(plan), m.balance)
  {
    var fee := Fee(plan);
    if m.balance >= fee then Charged(m.name, Title(plan), fee, m.balance - fee)
    else Insufficient(m.name, Title(plan), fee, m.balance)
  }

  /** One subscription of the sweep: an inactive one or one without a
      member is skipped; a member who can pay has the fee taken from the
      balance, recorded as a `subscription` payment and confirmed; a member
      who cannot is warned and nothing is charged. */
  function BillOne(b: Billing, row: SubscriptionRow, today: Date): (r: Billing)
    ensures r.store.subscriptions == b.store.subscriptions
    ensures r.store.members.Keys == b.store.members.Keys
    ensures forall q :: q in b.store.members && q != row.phone ==> r.store.members[q] == b.store.members[q]
    ensures !Due(b.store, row) ==> r.store == b.store && r.processed == b.processed
    ensures Due(b.store, row) ==>
      var m := b.store.members[row.phone];
      var fee := Fee(row.subscription.plan);
      && r.store.members[row.phone] == m.(balance := m.balance - fee)
      && r.store.payments == b.store.payments
           + [Payment(b.store.nextId, row.phone, fee, today, SubscriptionKind, FeeDescription(row.subscription.plan))]
      && r.processed == b.processed + 1
    ensures IdsIssued(b.store) ==> IdsIssued(r.store)
    ensures Due(b.store, row) ==> r.store.nextId == b.store.nextId + 1
    ensures row.subscription.status == Active && row.phone in b.store.members ==>
      r.outbox == b.outbox + [Outbound(row.phone, BillingNotice(b.store.members[row.phone], row.subscription.plan))]
    ensures row.subscription.status != Active || row.phone !in b.store.members ==> r.outbox == b.outbox
  {
    if row.subscription.status != Active then b
    else
      match GetMember(b.store, row.phone)
      case None => b
      case Some(m) =>
        var plan := row.subscription.plan;
        var fee := Fee(plan);
        if m.balance >= fee then
          var newBalance := m.balance - fee;
          var st1 := UpdateMember(b.store, row.phone, BalancePatch(newBalance)).store;
          var st2 := AddPayment(st1, row.phone, fee, SubscriptionKind, FeeDescription(plan), today);
          Billing(st2, b.outbox + [Outbound(row.phone, Charged(m.name, Title(plan), fee, newBalance))], b.processed + 1)
        else
          Billing(b.store, b.outbox + [Outbound(row.phone, Insufficient(m.name, Title(plan), fee, m.balance))], b.processed)
  }

  /** The sweep over the listed subscriptions, in listing order. */
  function BillAll(b: Billing, rows: seq<SubscriptionRow>, today: Date): (r: Billing)
    ensures r.store.subscriptions == b.store.subscriptions
    ensures r.store.members.Keys == b.store.members.Keys
    ensures b.store.payments <= r.store.payments && b.outbox <= r.outbox
    ensures r.processed - b.processed == |r.store.payments| - |b.store.payments|
    decreases |rows|
  {
    if rows == [] then b else BillAll(BillOne(b, rows[0], today), rows[1..], today)
  }

  /** Reference definition: what the sweep takes from `phone`, summed over
      the listing as it stood before the sweep. */
  function Charge(st: Store, rows: seq<SubscriptionRow>, phone: string): real {
    if rows == [] then 0.0
    else
      (if rows[0].phone == phone && Due(st, rows[0]) then Fee(rows[0].subscription.plan) else 0.0)
      + Charge(st, rows[1..], phone)
  }

  /** Reference definition: how many listed subscriptions are due. */
  function DueCount(st: Store, rows: seq<SubscriptionRow>): nat {
    if rows == [] then 0 else (if Due(st, rows[0]) then 1 else 0) + DueCount(st, rows[1..])
  }

  /** Reference definition: the `subscription` payments the sweep records
      over the listing, numbered from `id`, as the ledger stood before. */
  function FeePayments(st: Store, rows: seq<SubscriptionRow>, id: nat, today: Date): seq<Payment> {
    if rows == [] then []
    else if Due(st, rows[0]) then
      var plan := rows[0].subscription.plan;
      [Payment(id, rows[0].phone, Fee(plan), today, SubscriptionKind, FeeDescription(plan))]
      + FeePayments(st, rows[1..], id + 1, today)
    else FeePayments(st, rows[1..], id, today)
  }

  /** Reference definition: the messages the sweep sends over the listing,
      one per active subscription with a member, as the ledger stood before. */
  function Notices(st: Store, rows: seq<SubscriptionRow>): seq<Outbound> {
    if rows == [] then []
    else if rows[0].subscription.status == Active && rows[0].phone in st.members then
      [Outbound(rows[0].phone, BillingNotice(st.members[rows[0].phone], rows[0].subscription.plan))]
      + Notices(st, rows[1..])
    else Notices(st, rows[1..])
  }

  /** A phone no row names is charged nothing. */
  lemma {:induction false} ChargeAbsent(st: Store, rows: seq<SubscriptionRow>, phone: string)
    requires forall i :: 0 <= i < |rows| ==> rows[i].phone != phone
    ensures Charge(st, rows, phone) == 0.0
  {
    if rows != [] {
      ChargeAbsent(st, rows[1..], phone);
    }
  }

  /** With distinct phones, the charge of a phone is decided by its one row. */
  lemma {:induction false} ChargeAt(st: Store, rows: seq<SubscriptionRow>, k: nat, phone: string)
    requires DistinctPhones(rows)
    requires k < |rows| && rows[k].phone == phone
    ensures Charge(st, rows, phone) == if Due(st, rows[k]) then Fee(rows[k].subscription.plan) else 0.0
  {
    if k == 0 {
      ChargeAbsent(st, rows[1..], phone);
    } else {
      ChargeAt(st, rows[1..], k - 1, phone);
    }
  }

  /** Changing the member of a phone no row names changes none of the
      reference quantities. */
  lemma {:induction false} ChargeFrame(st: Store, st': Store, rows: seq<SubscriptionRow>, x: string)
    requires forall i :: 0 <= i < |rows| ==> rows[i].phone != x
    requires st'.members.Keys == st.members.Keys
    requires forall q :: q in st.members && q != x ==> st'.members[q] == st.members[q]
    ensures forall q :: Charge(st', rows, q) == Charge(st, rows, q)
    ensures DueCount(st', rows) == DueCount(st, rows)
    ensures forall id: nat, today: Date :: FeePayments(st', rows, id, today) == FeePayments(st, rows, id, today)
    ensures Notices(st', rows) == Notices(st, rows)
  {
    if rows != [] {
      ChargeFrame(st, st', rows[1..], x);
      assert Due(st', rows[0]) == Due(st, rows[0]);
    }
  }

  /** A `subscription` payment lowers the net of its own phone by its
      amount and leaves every other phone's net alone. */
  lemma NetOfFee(x: Payment, phone: string)
    requires x.kind == SubscriptionKind
    ensures Net([x], phone) == if x.phone == phone then 0.0 - x.amount else 0.0
  {
    assert [x][..0] == [];
    assert SumWhere([x], OfKind(phone, ContributionKind)) == 0.0;
    assert SumWhere([x], OfKind(phone, SubscriptionKind)) == if x.phone == phone then x.amount else 0.0;
  }

  /** The rows after the first keep distinct phones, none of them the
      first row's. */
  lemma DistinctTail(rows: seq<SubscriptionRow>)
    requires DistinctPhones(rows) && rows != []
    ensures DistinctPhones(rows[1..])
    ensures forall i :: 0 <= i < |rows| - 1 ==> rows[1..][i].phone != rows[0].phone
  {
    forall i, j | 0 <= i < j < |rows| - 1
      ensures rows[1..][i].phone != rows[1..][j].phone
    {
      assert rows[1..][i] == rows[i + 1] && rows[1..][j] == rows[j + 1];
    }
    forall i | 0 <= i < |rows| - 1
      ensures rows[1..][i].phone != rows[0].phone
    {
      assert rows[1..][i] == rows[i + 1];
    }
  }

  /** The sweep's effect on the member table, stated against the ledger
      as it was before the sweep: each member loses exactly its charge and
      nothing else changes in its row; subscriptions are untouched. */
  lemma {:induction false} BillAllMembers(b: Billing, rows: seq<SubscriptionRow>, today: Date)
    requires DistinctPhones(rows)
    ensures var r := BillAll(b, rows, today);
            && r.store.subscriptions == b.store.subscriptions
            && r.store.members.Keys == b.store.members.Keys
            && (forall q :: q in b.store.members ==>
                  r.store.members[q] == b.store.members[q].(balance := b.store.members[q].balance - Charge(b.store, rows, q)))
    decreases |rows|
  {
    var r := BillAll(b, rows, today);
    if rows == [] {
      forall q | q in b.store.members
        ensures r.store.members[q] == b.store.members[q].(balance := b.store.members[q].balance - Charge(b.store, rows, q))
      {
      }
    } else {
      var row := rows[0];
      var rest := rows[1..];
      var b1 := BillOne(b, row, today);
      DistinctTail(rows);
      BillAllMembers(b1, rest, today);
      ChargeFrame(b.store, b1.store, rest, row.phone);
      ChargeAbsent(b.store, rest, row.phone);
      forall q | q in b.store.members
        ensures r.store.members[q] == b.store.members[q].(balance := b.store.members[q].balance - Charge(b.store, rows, q))
      {
        if q != row.phone {
          assert Charge(b.store, rows, q) == Charge(b.store, rest, q);
        }
      }
    }
  }

  /** The sweep's effect on the payment table: the earlier payments stay,
      one `subscription` payment dated today is added per due
      subscription, and the count of fees collected matches. */
  lemma {:induction false} BillAllPayments(b: Billing, rows: seq<SubscriptionRow>, today: Date)
    requires DistinctPhones(rows)
    ensures var r := BillAll(b, rows, today);
            && |r.store.payments| == |b.store.payments| + DueCount(b.store, rows)
            && r.store.payments[..|b.store.payments|] == b.store.payments
            && (forall i :: |b.store.payments| <= i < |r.store.payments| ==>
                  r.store.payments[i].kind == SubscriptionKind && r.store.payments[i].date == today)
            && r.processed == b.processed + DueCount(b.store, rows)
            && (IdsIssued(b.store) ==> IdsIssued(r.store))
    decreases |rows|
  {
    var r := BillAll(b, rows, today);
    if rows == [] {
      assert b.store.payments[..|b.store.payments|] == b.store.payments;
    } else {
      var row := rows[0];
      var rest := rows[1..];
      var b1 := BillOne(b, row, today);
      DistinctTail(rows);
      BillAllPayments(b1, rest, today);
      ChargeFrame(b.store, b1.store, rest, row.phone);
      var n := |b.store.payments|;
      var n1 := |b1.store.payments|;
      assert r.store.payments[..n] == b.store.payments by {
        assert r.store.payments[..n1][..n] == r.store.payments[..n];
      }
      forall i | n <= i < |r.store.payments|
        ensures r.store.payments[i].kind == SubscriptionKind && r.store.payments[i].date == today
      {
        if i < n1 {
          assert r.store.payments[i] == r.store.payments[..n1][i];
        }
      }
    }
  }

  /** The fee payments the sweep records, stated against the ledger as it
      was before the sweep: those of the reference definition, in listing
      order. */
  lemma {:induction false} BillAllFees(b: Billing, rows: seq<SubscriptionRow>, today: Date)
    requires DistinctPhones(rows)
    ensures BillAll(b, rows, today).store.payments == b.store.payments + FeePayments(b.store, rows, b.store.nextId, today)
    decreases |rows|
  {
    if rows != [] {
      DistinctTail(rows);
      BillAllFees(BillOne(b, rows[0], today), rows[1..], today);
      FeesStep(b, rows, today);
    }
  }

  /** Billing the first row moves its fee payment, if any, from the
      reference definition into the payment table. */
  lemma FeesStep(b: Billing, rows: seq<SubscriptionRow>, today: Date)
    requires DistinctPhones(rows) && rows != []
    ensures var b1 := BillOne(b, rows[0], today);
            b.store.payments + FeePayments(b.store, rows, b.store.nextId, today)
            == b1.store.payments + FeePayments(b1.store, rows[1..], b1.store.nextId, today)
  {
    var row := rows[0];
    var rest := rows[1..];
    var b1 := BillOne(b, row, today);
    DistinctTail(rows);
    ChargeFrame(b.store, b1.store, rest, row.phone);
    var fees := FeePayments(b.store, rows, b.store.nextId, today);
    if Due(b.store, row) {
      var x := b1.store.payments[|b.store.payments|];
      assert fees == [x] + FeePayments(b.store, rest, b1.store.nextId, today);
      assert b.store.payments + [x] == b1.store.payments;
    } else {
      assert fees == FeePayments(b.store, rest, b1.store.nextId, today);
    }
  }

  /** The messages the sweep sends, stated against the ledger as it was
      before the sweep: those of the reference definition, in listing
      order. */
  lemma {:induction false} BillAllNotices(b: Billing, rows: seq<SubscriptionRow>, today: Date)
    requires DistinctPhones(rows)
    ensures BillAll(b, rows, today).outbox == b.outbox + Notices(b.store, rows)
    decreases |rows|
  {
    if rows != [] {
      DistinctTail(rows);
      BillAllNotices(BillOne(b, rows[0], today), rows[1..], today);
      NoticesStep(b, rows, today);
    }
  }

  lemma AppendAssoc<T>(a: seq<T>, b: seq<T>, c: seq<T>)
    ensures a + (b + c) == (a + b) + c
  {
  }

  /** Billing the first row moves its message, if any, from the reference
      definition into the outbox. */
  lemma NoticesStep(b: Billing, rows: seq<SubscriptionRow>, today: Date)
    requires DistinctPhones(rows) && rows != []
    ensures var b1 := BillOne(b, rows[0], today);
            b.outbox + Notices(b.store, rows) == b1.outbox + Notices(b1.store, rows[1..])
  {
    var row := rows[0];
    var b1 := BillOne(b, row, today);
    DistinctTail(rows);
    ChargeFrame(b.store, b1.store, rows[1..], row.phone);
    if row.subscription.status == Active && row.phone in b.store.members {
      var o := Outbound(row.phone, BillingNotice(b.store.members[row.phone], row.subscription.plan));
      var later := Notices(b.store, rows[1..]);
      assert Notices(b.store, rows) == [o] + later;
      assert b1.outbox == b.outbox + [o];
      AppendAssoc(b.outbox, [o], later);
      assert Notices(b1.store, rows[1..]) == later;
    } else {
      assert Notices(b.store, rows) == Notices(b.store, rows[1..]);
      assert b1.outbox == b.outbox;
      assert Notices(b1.store, rows[1..]) == Notices(b.store, rows[1..]);
    }
  }

  /** The sweep's effect on the accounts: each phone's net moves by minus
      its charge, just as its balance does. */
  lemma {:induction false} BillAllNet(b: Billing, rows: seq<SubscriptionRow>, today: Date, q: string)
    requires DistinctPhones(rows)
    ensures Net(BillAll(b, rows, today).store.payments, q) == Net(b.store.payments, q) - Charge(b.store, rows, q)
    decreases |rows|
  {
    if rows != [] {
      var row := rows[0];
      var rest := rows[1..];
      var b1 := BillOne(b, row, today);
      DistinctTail(rows);
      BillAllNet(b1, rest, today, q);
      ChargeFrame(b.store, b1.store, rest, row.phone);
      if Due(b.store, row) {
        var x := Payment(b.store.nextId, row.phone, Fee(row.subscription.plan), today, SubscriptionKind, FeeDescription(row.subscription.plan));
        NetAppend(b.store.payments, [x], q);
        NetOfFee(x, q);
      }
    }
  }

  /** A member charged by the monthly sweep: an active subscription, a
      member row, and a balance that covers the plan's fee. */
  predicate BillingDue(st: Store, phone: string) {
    && phone in st.subscriptions && phone in st.members
    && st.subscriptions[phone].status == Active
    && st.members[phone].balance >= Fee(st.subscriptions[phone].plan)
  }

  /** What the sweep takes from `phone`. */
  function MonthlyCharge(st: Store, phone: string): real {
    if BillingDue(st, phone) then Fee(st.subscriptions[phone].plan) else 0.0
  }

  /** Over the full subscription listing the reference charge is the
      plan's fee for a due member and nothing for anyone else. */
  lemma ChargeOfListing(st: Store, rows: seq<SubscriptionRow>, phone: string)
    requires DistinctPhones(rows)
    requires forall r :: r in rows ==> SubscriptionListed(st, r)
    requires forall p :: p in st.subscriptions && p in st.members ==>
      SubscriptionRow(p, st.members[p].name, st.subscriptions[p]) in rows
    ensures Charge(st, rows, phone) == MonthlyCharge(st, phone)
  {
    if k :| 0 <= k < |rows| && rows[k].phone == phone {
      ChargeAt(st, rows, k, phone);
      assert SubscriptionListed(st, rows[k]);
    } else {
      ChargeAbsent(st, rows, phone);
    }
  }

  /** A payment as the monthly sweep records it for a due member: the fee
      of the member's plan, of kind `subscription`, dated today and
      described by the plan. */
  predicate FeeRecorded(st: Store, x: Payment, today: Date) {
    && BillingDue(st, x.phone)
    && x.amount == Fee(st.subscriptions[x.phone].plan)
    && x.kind == SubscriptionKind && x.date == today
    && x.description == FeeDescription(st.subscriptions[x.phone].plan)
  }

  /** The message the monthly sweep sends a member with an active
      subscription, as the ledger stood before the sweep. */
  predicate NoticeSent(st: Store, o: Outbound) {
    && o.to in st.subscriptions && o.to in st.members
    && st.subscriptions[o.to].status == Active
    && o.notice == BillingNotice(st.members[o.to], st.subscriptions[o.to].plan)
  }

  /** Over a listing that agrees with the ledger and names each phone once,
      the reference fee payments go to exactly the due members, one each,
      each for the fee of the member's plan. */
  lemma {:induction false} FeePaymentsExact(st: Store, rows: seq<SubscriptionRow>, id: nat, today: Date)
    requires DistinctPhones(rows)
    requires forall r :: r in rows ==> SubscriptionListed(st, r)
    ensures var fees := FeePayments(st, rows, id, today);
            && (forall x :: x in fees ==> FeeRecorded(st, x, today) && exists r :: r in rows && r.phone == x.phone)
            && (forall r :: r in rows && BillingDue(st, r.phone) ==> exists x :: x in fees && x.phone == r.phone)
            && (forall a, c :: 0 <= a < c < |fees| ==> fees[a].phone != fees[c].phone)
    decreases |rows|
  {
    if rows != [] {
      var row := rows[0];
      var rest := rows[1..];
      assert SubscriptionListed(st, row);
      DistinctTail(rows);
      var id' := if Due(st, row) then id + 1 else id;
      FeePaymentsExact(st, rest, id', today);
      var later := FeePayments(st, rest, id', today);
      forall x | x in later
        ensures x.phone != row.phone
      {
        var r :| r in rest && r.phone == x.phone;
        var k :| 0 <= k < |rest| && rest[k] == r;
      }
    }
  }

  /** Over a listing that agrees with the ledger and names each phone once,
      the reference messages go to exactly the members with an active
      subscription, one each, with the figures the ledger held. */
  lemma {:induction false} NoticesExact(st: Store, rows: seq<SubscriptionRow>)
    requires DistinctPhones(rows)
    requires forall r :: r in rows ==> SubscriptionListed(st, r)
    ensures var out := Notices(st, rows);
            && (forall o :: o in out ==> NoticeSent(st, o) && exists r :: r in rows && r.phone == o.to)
            && (forall r :: r in rows && r.subscription.status == Active && r.phone in st.members ==>
                  Outbound(r.phone, BillingNotice(st.members[r.phone], r.subscription.plan)) in out)
            && (forall a, c :: 0 <= a < c < |out| ==> out[a].to != out[c].to)
    decreases |rows|
  {
    if rows != [] {
      var row := rows[0];
      var rest := rows[1..];
      assert SubscriptionListed(st, row);
      DistinctTail(rows);
      NoticesExact(st, rest);
      var later := Notices(st, rest);
      forall o | o in later
        ensures o.to != row.phone
      {
        var r :| r in rest && r.phone == o.to;
        var k :| 0 <= k < |rest| && rest[k] == r;
      }
    }
  }

  /** What the full subscription listing promises about the ledger. */
  predicate ListingOf(st: Store, rows: seq<SubscriptionRow>) {
    && DistinctPhones(rows)
    && (forall r :: r in rows ==> SubscriptionListed(st, r))
    && (forall p :: p in st.subscriptions && p in st.members ==>
          SubscriptionRow(p, st.members[p].name, st.subscriptions[p]) in rows)
  }

  /** The sweep over the full listing appends one fee payment per due
      member and no other payment. */
  lemma SweepFees(st: Store, rows: seq<SubscriptionRow>, today: Date)
    requires ListingOf(st, rows)
    ensures var ps := BillAll(Billing(st, [], 0), rows, today).store.payments;
            var n := |st.payments|;
            && n <= |ps| && ps[..n] == st.payments
            && (forall i :: n <= i < |ps| ==> FeeRecorded(st, ps[i], today))
            && (forall p :: BillingDue(st, p) ==> exists i :: n <= i < |ps| && ps[i].phone == p)
            && (forall i, j :: n <= i < j < |ps| ==> ps[i].phone != ps[j].phone)
  {
    BillAllFees(Billing(st, [], 0), rows, today);
    FeePaymentsExact(st, rows, st.nextId, today);
    var fees := FeePayments(st, rows, st.nextId, today);
    FeesAppended(st, st.payments, fees, today);
    FeesAppendedCover(st, rows, st.payments, fees);
  }

  /** The payment table after appending fee payments keeps its earlier
      rows, and every appended row is a fee payment. */
  lemma FeesAppended(st: Store, earlier: seq<Payment>, fees: seq<Payment>, today: Date)
    requires forall x :: x in fees ==> FeeRecorded(st, x, today)
    ensures var ps := earlier + fees;
            var n := |earlier|;
            && ps[..n] == earlier
            && (forall i :: n <= i < |ps| ==> FeeRecorded(st, ps[i], today))
  {
    var ps := earlier + fees;
    var n := |earlier|;
    assert ps[..n] == earlier;
    forall i | n <= i < |ps|
      ensures FeeRecorded(st, ps[i], today)
    {
      assert ps[i] == fees[i - n];
    }
  }

  /** When the fee payments of a full listing are appended, every due
      member has one of the appended rows, and no phone has two. */
  lemma FeesAppendedCover(st: Store, rows: seq<SubscriptionRow>, earlier: seq<Payment>, fees: seq<Payment>)
    requires ListingOf(st, rows)
    requires forall r :: r in rows && BillingDue(st, r.phone) ==> exists x :: x in fees && x.phone == r.phone
    requires forall a, c :: 0 <= a < c < |fees| ==> fees[a].phone != fees[c].phone
    ensures var ps := earlier + fees;
            var n := |earlier|;
            && (forall p :: BillingDue(st, p) ==> exists i :: n <= i < |ps| && ps[i].phone == p)
            && (forall i, j :: n <= i < j < |ps| ==> ps[i].phone != ps[j].phone)
  {
    var ps := earlier + fees;
    var n := |earlier|;
    forall p | BillingDue(st, p)
      ensures exists i :: n <= i < |ps| && ps[i].phone == p
    {
      assert SubscriptionRow(p, st.members[p].name, st.subscriptions[p]) in rows;
      var x :| x in fees && x.phone == p;
      var k :| 0 <= k < |fees| && fees[k] == x;
      assert ps[n + k] == x;
    }
    forall i, j | n <= i < j < |ps|
      ensures ps[i].phone != ps[j].phone
    {
      assert ps[i] == fees[i - n] && ps[j] == fees[j - n];
    }
  }

  /** The sweep over the full listing messages every member with an active
      subscription once, and nobody else. */
  lemma SweepNotices(st: Store, rows: seq<SubscriptionRow>, today: Date)
    requires ListingOf(st, rows)
    ensures var out := BillAll(Billing(st, [], 0), rows, today).outbox;
            && (forall o :: o in out ==> NoticeSent(st, o))
            && (forall p :: p in st.members && p in st.subscriptions && st.subscriptions[p].status == Active ==>
                  Outbound(p, BillingNotice(st.members[p], st.subscriptions[p].plan)) in out)
            && (forall i, j :: 0 <= i < j < |out| ==> out[i].to != out[j].to)
  {
    BillAllNotices(Billing(st, [], 0), rows, today);
    NoticesExact(st, rows);
    assert [] + Notices(st, rows) == Notices(st, rows);
    forall p | p in st.members && p in st.subscriptions && st.subscriptions[p].status == Active
      ensures Outbound(p, BillingNotice(st.members[p], st.subscriptions[p].plan)) in Notices(st, rows)
    {
      assert SubscriptionRow(p, st.members[p].name, st.subscriptions[p]) in rows;
    }
  }

  /** `process_monthly_subscriptions`: charges every due member once and
      messages every member with an active subscription once. Each
      member's balance drops by exactly its monthly charge, so a balance
      that was not negative stays so; the other columns, the subscriptions
      and the earlier payments are untouched. The new payments are one
      `subscription` payment of the plan's fee per due member, the count
      of fees collected is their number, and each phone's net drops by
      what it was charged. The message is the confirmation with the new
      balance for a member who could pay and the warning otherwise. */
  method ProcessMonthlySubscriptions(st: Store, today: Date) returns (r: Billing)
    ensures r.store.subscriptions == st.subscriptions
    ensures r.store.members.Keys == st.members.Keys
    ensures forall p :: p in st.members ==>
      r.store.members[p] == st.members[p].(balance := st.members[p].balance - MonthlyCharge(st, p))
    ensures forall p :: p in st.members && st.members[p].balance >= 0.0 ==> r.store.members[p].balance >= 0.0
    ensures st.payments <= r.store.payments
    ensures forall i :: |st.payments| <= i < |r.store.payments| ==> FeeRecorded(st, r.store.payments[i], today)
    ensures forall p :: BillingDue(st, p) ==>
      exists i :: |st.payments| <= i < |r.store.payments| && r.store.payments[i].phone == p
    ensures forall i, j :: |st.payments| <= i < j < |r.store.payments| ==>
      r.store.payments[i].phone != r.store.payments[j].phone
    ensures r.processed == |r.store.payments| - |st.payments|
    ensures forall p :: Net(r.store.payments, p) == Net(st.payments, p) - MonthlyCharge(st, p)
    ensures IdsIssued(st) ==> IdsIssued(r.store)
    ensures forall o :: o in r.outbox ==> NoticeSent(st, o)
    ensures forall p :: p in st.members && p in st.subscriptions && st.subscriptions[p].status == Active ==>
      Outbound(p, BillingNotice(st.members[p], st.subscriptions[p].plan)) in r.outbox
    ensures forall i, j :: 0 <= i < j < |r.outbox| ==> r.outbox[i].to != r.outbox[j].to
  {
    var rows := GetAllSubscriptions(st);
    r := BillAll(Billing(st, [], 0), rows, today);
    BillAllMembers(Billing(st, [], 0), rows, today);
    BillAllPayments(Billing(st, [], 0), rows, today);
    SweepFees(st, rows, today);
    SweepNotices(st, rows, today);
    forall p
      ensures Charge(st, rows, p) == MonthlyCharge(st, p)
      ensures Net(r.store.payments, p) == Net(st.payments, p) - MonthlyCharge(st, p)
    {
      ChargeOfListing(st, rows, p);
      BillAllNet(Billing(st, [], 0), rows, today, p);
    }
  }

  // ---------------------------------------------------------------------
  // Reminders

  /** The two reminder sweeps: the scheduler's weekly one wants an active
      subscription; the interpreter's `send_payment_reminders` accepts a
      subscription row in any status. Both want an active member. */
  datatype ReminderSweep = Weekly | OnDemand

  predicate Reminded(st: Store, sweep: ReminderSweep, phone: string) {
    && phone in st.members && st.members[phone].status == Active
    && phone in st.subscriptions
    && (sweep.Weekly? ==> st.subscriptions[phone].status == Active)
  }

  function ReminderFor(sweep: ReminderSweep, m: Member): Notice {
    match sweep
    case Weekly => WeeklyReminder(m.name, m.balance, m.lastPayment)
    case OnDemand => ContributionReminder(m.name, m.balance)
  }

  /** The test the sweep applies to one row of the member listing. */
  predicate Wants(st: Store, sweep: ReminderSweep, row: MemberRow) {
    && row.member.status == Active
    && GetSubscription(st, row.phone).Some?
    && (sweep.Weekly? ==> GetSubscription(st, row.phone).value.status == Active)
  }

  /** The reminders for a prefix of the member listing, in listing order. */
  function Reminders(st: Store, sweep: ReminderSweep, rows: seq<MemberRow>): seq<Outbound> {
    if rows == [] then []
    else
      var row := rows[|rows| - 1];
      var earlier := Reminders(st, sweep, rows[..|rows| - 1]);
      if Wants(st, sweep, row) then earlier + [Outbound(row.phone, ReminderFor(sweep, row.member))]
      else earlier
  }

  /** Extending the listing prefix by one row adds that row's reminder, if any. */
  lemma RemindersStep(st: Store, sweep: ReminderSweep, rows: seq<MemberRow>, i: nat)
    requires i < |rows|
    ensures Reminders(st, sweep, rows[..i + 1]) ==
      if Wants(st, sweep, rows[i])
      then Reminders(st, sweep, rows[..i]) + [Outbound(rows[i].phone, ReminderFor(sweep, rows[i].member))]
      else Reminders(st, sweep, rows[..i])
  {
    assert rows[..i + 1][..i] == rows[..i];
  }

  /** Over rows that agree with the member table and name each phone once,
      the reminders go to exactly the rows' members the sweep wants, once
      each, with their own figures. */
  lemma {:induction false} RemindersExact(st: Store, sweep: ReminderSweep, rows: seq<MemberRow>)
    requires forall r :: r in rows ==> r.phone in st.members && r.member == st.members[r.phone]
    requires forall i, j :: 0 <= i < j < |rows| ==> rows[i].phone != rows[j].phone
    ensures var out := Reminders(st, sweep, rows);
            && (forall o :: o in out ==>
                  Reminded(st, sweep, o.to) && o.notice == ReminderFor(sweep, st.members[o.to])
                  && exists r :: r in rows && r.phone == o.to)
            && (forall r :: r in rows && Reminded(st, sweep, r.phone) ==>
                  Outbound(r.phone, ReminderFor(sweep, r.member)) in out)
            && (forall a, c :: 0 <= a < c < |out| ==> out[a].to != out[c].to)
  {
    if rows != [] {
      var init := rows[..|rows| - 1];
      var row := rows[|rows| - 1];
      assert rows == init + [row];
      RemindersExact(st, sweep, init);
      var earlier := Reminders(st, sweep, init);
      forall o | o in earlier
        ensures o.to != row.phone
      {
        var r :| r in init && r.phone == o.to;
        var k :| 0 <= k < |init| && init[k] == r;
        assert rows[k] == r;
      }
    }
  }

  /** The loop of the reminder sweeps: one reminder per wanted row, in
      listing order, counting the ones the gateway accepted. */
  method CollectReminders(st: Store, sweep: ReminderSweep, rows: seq<MemberRow>, delivered: Outbound -> bool)
    returns (outbox: seq<Outbound>, count: nat)
    ensures outbox == Reminders(st, sweep, rows)
    ensures count == CountWhere(outbox, delivered)
  {
    outbox := [];
    count := 0;
    var i := 0;
    while i < |rows|
      invariant i <= |rows|
      invariant outbox == Reminders(st, sweep, rows[..i])
      invariant count == CountWhere(outbox, delivered)
    {
      var row := rows[i];
      RemindersStep(st, sweep, rows, i);
      if Wants(st, sweep, row) {
        var message := Outbound(row.phone, ReminderFor(sweep, row.member));
        var sent := outbox + [message];
        assert sent[..|outbox|] == outbox;
        outbox := sent;
        if delivered(message) {
          count := count + 1;
        }
      }
      i := i + 1;
    }
    assert rows[..i] == rows;
  }

  /** Walks the member listing and reminds every member the sweep wants,
      each once, counting the messages the gateway accepted. */
  method SendReminders(st: Store, sweep: ReminderSweep, delivered: Outbound -> bool)
    returns (outbox: seq<Outbound>, count: nat)
    ensures forall p :: p in st.members ==>
      (Outbound(p, ReminderFor(sweep, st.members[p])) in outbox <==> Reminded(st, sweep, p))
    ensures forall o :: o in outbox ==> Reminded(st, sweep, o.to) && o.notice == ReminderFor(sweep, st.members[o.to])
    ensures forall i, j :: 0 <= i < j < |outbox| ==> outbox[i].to != outbox[j].to
    ensures count == CountWhere(outbox, delivered)
  {
    var rows := GetAllMembers(st);
    outbox, count := CollectReminders(st, sweep, rows, delivered);
    RemindersExact(st, sweep, rows);
    forall p | p in st.members && Reminded(st, sweep, p)
      ensures Outbound(p, ReminderFor(sweep, st.members[p])) in outbox
    {
      assert MemberRow(p, st.members[p]) in rows;
    }
  }

  /** `send_weekly_reminders`: active members with an active subscription,
      and the number of reminders the gateway accepted. */
  method SendWeeklyReminders(st: Store, delivered: Outbound -> bool) returns (outbox: seq<Outbound>, count: nat)
    ensures forall p :: p in st.members ==>
      (Outbound(p, WeeklyReminder(st.members[p].name, st.members[p].balance, st.members[p].lastPayment)) in outbox
       <==> st.members[p].status == Active && p in st.subscriptions && st.subscriptions[p].status == Active)
    ensures forall o :: o in outbox ==>
      && o.to in st.members && st.members[o.to].status == Active
      && o.to in st.subscriptions && st.subscriptions[o.to].status == Active
      && o.notice == WeeklyReminder(st.members[o.to].name, st.members[o.to].balance, st.members[o.to].lastPayment)
    ensures forall i, j :: 0 <= i < j < |outbox| ==> outbox[i].to != outbox[j].to
    ensures count == CountWhere(outbox, delivered) && count <= |outbox|
  {
    outbox, count := SendReminders(st, Weekly, delivered);
  }

  /** `send_payment_reminders`: active members with a subscription row of
      any status; the gateway's answers are not looked at. */
  method SendPaymentReminders(st: Store, delivered: Outbound -> bool) returns (outbox: seq<Outbound>)
    ensures forall p :: p in st.members ==>
      (Outbound(p, ContributionReminder(st.members[p].name, st.members[p].balance)) in outbox
       <==> st.members[p].status == Active && p in st.subscriptions)
    ensures forall o :: o in outbox ==>
      && o.to in st.members && st.members[o.to].status == Active && o.to in st.subscriptions
      && o.notice == ContributionReminder(st.members[o.to].name, st.members[o.to].balance)
    ensures forall i, j :: 0 <= i < j < |outbox| ==> outbox[i].to != outbox[j].to
  {
    var accepted;
    outbox, accepted := SendReminders(st, OnDemand, delivered);
  }

  // ---------------------------------------------------------------------
  // Weekly reports

  /** A member who receives the weekly statement: an active premium
      subscription and a member row. */
  predicate ReportDue(st: Store, phone: string) {
    && phone in st.subscriptions && phone in st.members
    && st.subscriptions[phone].plan == PremiumPlan
    && st.subscriptions[phone].status == Active
  }

  /** The test `generate_weekly_reports` applies to one listed subscription. */
  predicate ReportWanted(st: Store, row: SubscriptionRow) {
    row.subscription.plan == PremiumPlan && row.subscription.status == Active
    && GetMember(st, row.phone).Some?
  }

  /** The rows of a listing prefix that get a weekly statement, in listing order. */
  function ReportRows(st: Store, rows: seq<SubscriptionRow>): seq<SubscriptionRow> {
    if rows == [] then []
    else
      var earlier := ReportRows(st, rows[..|rows| - 1]);
      if ReportWanted(st, rows[|rows| - 1]) then earlier + [rows[|rows| - 1]] else earlier
  }

  /** Extending the listing prefix by one row adds that row, if it is wanted. */
  lemma ReportRowsStep(st: Store, rows: seq<SubscriptionRow>, i: nat)
    requires i < |rows|
    ensures ReportRows(st, rows[..i + 1]) ==
      if ReportWanted(st, rows[i]) then ReportRows(st, rows[..i]) + [rows[i]] else ReportRows(st, rows[..i])
  {
    assert rows[..i + 1][..i] == rows[..i];
  }

  /** Over a sorted listing with distinct phones, the filter keeps exactly
      the wanted rows, once each, in the listing's order. */
  lemma {:induction false} ReportRowsExact(st: Store, rows: seq<SubscriptionRow>)
    requires SortedBy(rows, NewestSubscriptionFirst)
    requires DistinctPhones(rows)
    ensures var out := ReportRows(st, rows);
            && SortedBy(out, NewestSubscriptionFirst)
            && (forall r :: r in out <==> r in rows && ReportWanted(st, r))
            && DistinctPhones(out)
  {
    if rows != [] {
      var init := rows[..|rows| - 1];
      var row := rows[|rows| - 1];
      assert rows == init + [row];
      ReportRowsExact(st, init);
      forall t | t in ReportRows(st, init)
        ensures NewestSubscriptionFirst(t, row) && t.phone != row.phone
      {
        var k :| 0 <= k < |init| && init[k] == t;
        assert rows[k] == t;
      }
    }
  }

  /** The loop of `generate_weekly_reports` over the listing. */
  method SelectReportRows(st: Store, rows: seq<SubscriptionRow>) returns (targets: seq<SubscriptionRow>)
    ensures targets == ReportRows(st, rows)
  {
    targets := [];
    var i := 0;
    while i < |rows|
      invariant i <= |rows|
      invariant targets == ReportRows(st, rows[..i])
    {
      var row := rows[i];
      ReportRowsStep(st, rows, i);
      if row.subscription.plan == PremiumPlan && row.subscription.status == Active
        && GetMember(st, row.phone).Some?
      {
        targets := targets + [row];
      }
      i := i + 1;
    }
    assert rows[..i] == rows;
  }

  /** The premium and active filter of `generate_weekly_reports`, applied
      to the subscription listing, followed by its member lookup. The
      listing's order, newest subscription first, is kept. */
  method WeeklyReportTargets(st: Store) returns (targets: seq<SubscriptionRow>)
    ensures SortedBy(targets, NewestSubscriptionFirst)
    ensures forall r :: r in targets ==> SubscriptionListed(st, r) && ReportDue(st, r.phone)
    ensures forall p :: ReportDue(st, p) ==>
      SubscriptionRow(p, st.members[p].name, st.subscriptions[p]) in targets
    ensures forall i, j :: 0 <= i < j < |targets| ==> targets[i].phone != targets[j].phone
  {
    var rows := GetAllSubscriptions(st);
    targets := SelectReportRows(st, rows);
    ReportRowsExact(st, rows);
    forall p | ReportDue(st, p)
      ensures SubscriptionRow(p, st.members[p].name, st.subscriptions[p]) in targets
    {
      var row := SubscriptionRow(p, st.members[p].name, st.subscriptions[p]);
      assert row in rows;
    }
  }
}

=== FILE: text.dfy ===
/** The handful of Python `str` operations the bot relies on: `strip`,
    `upper`, `title`, `startswith`, `split()`, `split(' ', 1)` and
    `replace(pat, '')`. Case mapping is modelled for ASCII letters only. */
module Text {

  /** Python's `str.isspace` for one character. */
  predicate IsSpace(c: char) {
    || ('\t' <= c <= '\r')
    || ('\U{1C}' <= c <= '\U{1F}')
    || c == ' '
    || c == '\U{85}'
    || c == '\U{A0}'
    || c == '\U{1680}'
    || ('\U{2000}' <= c <= '\U{200A}')
    || c == '\U{2028}'
    || c == '\U{2029}'
    || c == '\U{202F}'
    || c == '\U{205F}'
    || c == '\U{3000}'
  }

  predicate IsLower(c: char) { 'a' <= c <= 'z' }
  predicate IsUpper(c: char) { 'A' <= c <= 'Z' }
  /** A cased character in the sense of `str.title`. */
  predicate IsLetter(c: char) { IsLower(c) || IsUpper(c) }

  function UpperChar(c: char): char {
    if IsLower(c) then (c as int - 32) as char else c
  }

  function LowerChar(c: char): char {
    if IsUpper(c) then (c as int + 32) as char else c
  }

  /** `s.upper()`. */
  function Upper(s: string): (r: string)
    ensures |r| == |s|
  {
    if s == [] then [] else [UpperChar(s[0])] + Upper(s[1..])
  }

  predicate StartsWith(s: string, prefix: string) {
    |prefix| <= |s| && s[..|prefix|] == prefix
  }

  function TrimLeft(s: string): string {
    if |s| > 0 && IsSpace(s[0]) then TrimLeft(s[1..]) else s
  }

  function TrimRight(s: string): string {
    if |s| > 0 && IsSpace(s[|s| - 1]) then TrimRight(s[..|s| - 1]) else s
  }

  /** `s.strip()`: the result has no white space at either end and is a
      contiguous piece of `s` flanked only by white space. */
  function Strip(s: string): (r: string)
    ensures r == [] || (!IsSpace(r[0]) && !IsSpace(r[|r| - 1]))
    ensures exists i, j :: 0 <= i <= j <= |s| && r == s[i..j]
                           && AllSpace(s[..i]) && AllSpace(s[j..])
  {
    TrimLeftShape(s);
    var l := TrimLeft(s);
    TrimRightShape(l);
    var i := |s| - |l|;
    var j := i + |TrimRight(l)|;
    assert s[i..] == l;
    assert s[i..j] == TrimRight(l);
    assert s[j..] == l[|TrimRight(l)|..];
    TrimRight(l)
  }

  predicate AllSpace(s: string) {
    forall k :: 0 <= k < |s| ==> IsSpace(s[k])
  }

  lemma {:induction false} TrimLeftShape(s: string)
    ensures |TrimLeft(s)| <= |s|
    ensures s[|s| - |TrimLeft(s)|..] == TrimLeft(s)
    ensures AllSpace(s[..|s| - |TrimLeft(s)|])
    ensures TrimLeft(s) == [] || !IsSpace(TrimLeft(s)[0])
    decreases |s|
  {
    if |s| > 0 && IsSpace(s[0]) {
      TrimLeftShape(s[1..]);
      var n := |s| - |TrimLeft(s)|;
      assert s[..n] == [s[0]] + s[1..][..n - 1];
    }
  }

  lemma {:induction false} TrimRightShape(s: string)
    ensures |TrimRight(s)| <= |s|
    ensures s[..|TrimRight(s)|] == TrimRight(s)
    ensures AllSpace(s[|TrimRight(s)|..])
    ensures TrimRight(s) == [] || !IsSpace(TrimRight(s)[|TrimRight(s)| - 1])
    ensures |s| > 0 && !IsSpace(s[0]) ==> |TrimRight(s)| > 0
    decreases |s|
  {
    if |s| > 0 && IsSpace(s[|s| - 1]) {
      var s' := s[..|s| - 1];
      TrimRightShape(s');
      assert TrimRight(s) == TrimRight(s');
      var n := |TrimRight(s')|;
      assert s[..n] == s'[..n];
      assert s[n..] == s'[n..] + [s[|s| - 1]];
      assert AllSpace(s'[n..]);
      if |s'| > 0 && !IsSpace(s'[0]) {
        assert s[0] == s'[0];
      }
    }
  }

  /** Python's `s.replace(pat, '')`: occurrences are found left to right
      and do not overlap. */
  function RemoveAll(s: string, pat: string): (r: string)
    requires |pat| > 0
    ensures |r| <= |s|
    decreases |s|
  {
    if |s| < |pat| then s
    else if s[..|pat|] == pat then RemoveAll(s[|pat|..], pat)
    else [s[0]] + RemoveAll(s[1..], pat)
  }

  /** Does `pat` occur anywhere in `s`? */
  predicate Contains(s: string, pat: string) {
    StartsWith(s, pat) || (|s| > 0 && Contains(s[1..], pat))
  }

  /** Length of the run of non-space characters that starts `s`. */
  function TokenLength(s: string): (n: nat)
    ensures n <= |s|
    ensures forall k :: 0 <= k < n ==> !IsSpace(s[k])
    ensures n < |s| ==> IsSpace(s[n])
  {
    if s == [] || IsSpace(s[0]) then 0 else 1 + TokenLength(s[1..])
  }

  /** Python's `s.split()` with no argument: the maximal runs of
      non-space characters, in order. */
  function Words(s: string): (ws: seq<string>)
    ensures forall k :: 0 <= k < |ws| ==> ws[k] != []
    ensures forall k, j :: 0 <= k < |ws| && 0 <= j < |ws[k]| ==> !IsSpace(ws[k][j])
    decreases |s|
  {
    if s == [] then []
    else if IsSpace(s[0]) then Words(s[1..])
    else
      var n := TokenLength(s);
      [s[..n]] + Words(s[n..])
  }

  /** Index of the first `c` in `s`, or `|s|` when there is none. */
  function IndexOf(s: string, c: char): (k: nat)
    ensures k <= |s|
    ensures forall i :: 0 <= i < k ==> s[i] != c
    ensures k < |s| ==> s[k] == c
  {
    if s == [] then 0 else if s[0] == c then 0 else 1 + IndexOf(s[1..], c)
  }

  /** Python's `s.split(sep, 1)`: the text before and after the first
      `sep`, or `[s]` when `sep` does not occur. */
  function SplitOnce(s: string, sep: char): (parts: seq<string>)
    ensures 1 <= |parts| <= 2
    ensures |parts| == 2 <==> sep in s
    ensures |parts| == 1 ==> parts[0] == s
    ensures |parts| == 2 ==> s == parts[0] + [sep] + parts[1] && sep !in parts[0]
  {
    var k := IndexOf(s, sep);
    if k == |s| then [s]
    else
      assert s == s[..k] + [sep] + s[k + 1..];
      [s[..k], s[k + 1..]]
  }

  /** `str.title` from a state that records whether the previous character
      was cased: a letter after a letter is lowered, any other letter is
      raised, everything else is kept. */
  function TitleFrom(s: string, afterLetter: bool): (r: string)
    ensures |r| == |s|
  {
    if s == [] then []
    else
      var c := s[0];
      var c' := if !IsLetter(c) then c else if afterLetter then LowerChar(c) else UpperChar(c);
      [c'] + TitleFrom(s[1..], IsLetter(c))
  }

  /** `s.title()`. */
  function Title(s: string): string {
    TitleFrom(s, false)
  }

  // ---------------------------------------------------------------------
  // Facts the interpreter's proofs use

  lemma {:induction false} UpperPointwise(s: string)
    ensures |Upper(s)| == |s|
    ensures forall k :: 0 <= k < |s| ==> Upper(s)[k] == UpperChar(s[k])
  {
    if s != [] {
      UpperPointwise(s[1..]);
    }
  }

  lemma UpperSlice(s: string, i: int, j: int)
    requires 0 <= i <= j <= |s|
    ensures Upper(s[i..j]) == Upper(s)[i..j]
  {
    UpperPointwise(s);
    UpperPointwise(s[i..j]);
  }

  lemma UpperConcat(a: string, b: string)
    ensures Upper(a + b) == Upper(a) + Upper(b)
  {
    UpperPointwise(a);
    UpperPointwise(b);
    UpperPointwise(a + b);
  }

  /** Upper-casing twice is upper-casing once. */
  lemma {:induction false} UpperIdempotent(s: string)
    ensures Upper(Upper(s)) == Upper(s)
  {
    if s != [] {
      UpperIdempotent(s[1..]);
    }
  }

  lemma {:induction false} TrimLeftUpper(s: string)
    ensures TrimLeft(Upper(s)) == Upper(TrimLeft(s))
    decreases |s|
  {
    if s != [] {
      TrimLeftUpper(s[1..]);
    }
  }

  lemma {:induction false} TrimRightUpper(s: string)
    ensures TrimRight(Upper(s)) == Upper(TrimRight(s))
    decreases |s|
  {
    UpperPointwise(s);
    if |s| > 0 && IsSpace(s[|s| - 1]) {
      UpperSlice(s, 0, |s| - 1);
      assert s[0..|s| - 1] == s[..|s| - 1];
      assert Upper(s)[0..|s| - 1] == Upper(s)[..|Upper(s)| - 1];
      TrimRightUpper(s[..|s| - 1]);
    }
  }

  /** Stripping and upper-casing commute: case mapping never turns a
      letter into white space or back. */
  lemma StripUpper(s: string)
    ensures Strip(Upper(s)) == Upper(Strip(s))
  {
    TrimLeftUpper(s);
    TrimRightUpper(TrimLeft(s));
  }

  /** The title case of a text does not depend on the case it was typed
      in, so a name upper-cased by the bot and then title-cased equals the
      title case of what the user typed. */
  lemma {:induction false} TitleFromIgnoresCase(s: string, afterLetter: bool)
    ensures TitleFrom(Upper(s), afterLetter) == TitleFrom(s, afterLetter)
  {
    if s != [] {
      TitleFromIgnoresCase(s[1..], IsLetter(s[0]));
    }
  }

  /** Title-casing a title-cased text changes nothing. */
  lemma {:induction false} TitleFromIdempotent(s: string, afterLetter: bool)
    ensures TitleFrom(TitleFrom(s, afterLetter), afterLetter) == TitleFrom(s, afterLetter)
  {
    if s != [] {
      TitleFromIdempotent(s[1..], IsLetter(s[0]));
    }
  }

  /** Removing a pattern that does not occur leaves the text as it was. */
  lemma {:induction false} RemoveAllAbsent(s: string, pat: string)
    requires |pat| > 0
    requires !Contains(s, pat)
    ensures RemoveAll(s, pat) == s
    decreases |s|
  {
    if |s| >= |pat| {
      assert !StartsWith(s, pat);
      RemoveAllAbsent(s[1..], pat);
      assert s == [s[0]] + s[1..];
    }
  }

  /** A text with a non-space character has at least one word. */
  lemma {:induction false} WordsNonEmpty(s: string, k: nat)
    requires k < |s| && !IsSpace(s[k])
    ensures |Words(s)| >= 1
    decreases |s|
  {
    if IsSpace(s[0]) {
      WordsNonEmpty(s[1..], k - 1);
    }
  }

  /** After a leading keyword and a space, a stripped text always yields at
      least two words, the first being the keyword. */
  lemma KeywordWords(s: string, keyword: string)
    requires |keyword| > 0 && forall k :: 0 <= k < |keyword| ==> !IsSpace(keyword[k])
    requires StartsWith(s, keyword + " ")
    requires !IsSpace(s[|s| - 1])
    ensures |Words(s)| >= 2 && Words(s)[0] == keyword
  {
    var n := |keyword|;
    assert s[..n + 1] == keyword + " ";
    assert s[n] == ' ';
    assert forall k :: 0 <= k < n ==> s[k] == keyword[k];
    TokenLengthExact(s, n);
    assert s[..n] == keyword;
    WordsNonEmpty(s[n..], |s| - 1 - n);
  }

  lemma TokenLengthExact(s: string, n: nat)
    requires n < |s| && IsSpace(s[n])
    requires forall k :: 0 <= k < n ==> !IsSpace(s[k])
    ensures TokenLength(s) == n
  {
  }

  /** A text without white space at its ends is its own strip. */
  lemma StripClean(s: string)
    requires s == [] || (!IsSpace(s[0]) && !IsSpace(s[|s| - 1]))
    ensures Strip(s) == s
  {
    assert TrimLeft(s) == s;
    assert TrimRight(s) == s;
  }

  /** A text without lower-case letters is its own upper case. */
  lemma {:induction false} UpperClean(s: string)
    requires forall k :: 0 <= k < |s| ==> !IsLower(s[k])
    ensures Upper(s) == s
  {
    if s != [] {
      UpperClean(s[1..]);
    }
  }

  /** A single run of non-space characters is one word. */
  lemma OneWord(t: string)
    requires t != [] && forall k :: 0 <= k < |t| ==> !IsSpace(t[k])
    ensures Words(t) == [t]
  {
    assert TokenLength(t) == |t|;
    assert t[..|t|] == t;
    assert t[|t|..] == [];
  }

  /** Two runs of non-space characters around one space are two words. */
  lemma TwoWords(w: string, t: string)
    requires w != [] && forall k :: 0 <= k < |w| ==> !IsSpace(w[k])
    requires t != [] && forall k :: 0 <= k < |t| ==> !IsSpace(t[k])
    ensures Words(w + " " + t) == [w, t]
  {
    var s := w + " " + t;
    TokenLengthExact(s, |w|);
    assert s[..|w|] == w;
    assert s[|w|..] == " " + t;
    assert (" " + t)[1..] == t;
    OneWord(t);
  }

  // ---------------------------------------------------------------------
  // What `split()` returns on any text

  /** White space runs interleaved with words:
      `gaps[0] + ws[0] + gaps[1] + ... + ws[n - 1] + gaps[n]`. */
  function Weave(gaps: seq<string>, ws: seq<string>): string
    requires |gaps| == |ws| + 1
    decreases |ws|
  {
    if ws == [] then gaps[0] else gaps[0] + ws[0] + Weave(gaps[1..], ws[1..])
  }

  predicate NoSpace(w: string) {
    forall k :: 0 <= k < |w| ==> !IsSpace(w[k])
  }

  /** A layout of a text in the sense of `split()`: the words are non-empty
      and hold no white space, the gaps are white space, and two words are
      always separated by a non-empty gap. */
  predicate Layout(gaps: seq<string>, ws: seq<string>) {
    && |gaps| == |ws| + 1
    && (forall k :: 0 <= k < |gaps| ==> AllSpace(gaps[k]))
    && (forall k :: 0 < k < |ws| ==> gaps[k] != [])
    && (forall k :: 0 <= k < |ws| ==> ws[k] != [] && NoSpace(ws[k]))
  }

  /** Leading white space adds no word. */
  lemma {:induction false} WordsSkipSpace(sp: string, t: string)
    requires AllSpace(sp)
    ensures Words(sp + t) == Words(t)
    decreases |sp|
  {
    if sp == [] {
      assert sp + t == t;
    } else {
      assert (sp + t)[0] == sp[0];
      assert (sp + t)[1..] == sp[1..] + t;
      WordsSkipSpace(sp[1..], t);
    }
  }

  /** A word followed by nothing or by white space is the first word. */
  lemma WordsLead(w: string, rest: string)
    requires w != [] && NoSpace(w)
    requires rest == [] || IsSpace(rest[0])
    ensures Words(w + rest) == [w] + Words(rest)
  {
    var s := w + rest;
    if rest == [] {
      assert s == w;
      OneWord(w);
    } else {
      TokenLengthExact(s, |w|);
    }
    assert s[..|w|] == w;
    assert s[|w|..] == rest;
  }

  /** Whatever layout a text is written in, `split()` returns exactly its
      words: the maximal runs of non-space characters, in order. */
  lemma {:induction false} WordsOfLayout(gaps: seq<string>, ws: seq<string>)
    requires Layout(gaps, ws)
    ensures Words(Weave(gaps, ws)) == ws
    decreases |ws|
  {
    if ws == [] {
      WordsSkipSpace(gaps[0], []);
      assert gaps[0] + [] == gaps[0];
    } else {
      var rest := Weave(gaps[1..], ws[1..]);
      assert Layout(gaps[1..], ws[1..]) by {
        forall k | 0 < k < |ws| - 1
          ensures gaps[1..][k] != []
        {
          assert gaps[1..][k] == gaps[k + 1];
        }
      }
      WordsOfLayout(gaps[1..], ws[1..]);
      if ws[1..] == [] {
        assert rest == gaps[1];
      } else {
        assert gaps[1] != [];
        assert rest[0] == gaps[1][0];
      }
      WordsLead(ws[0], rest);
      WordsSkipSpace(gaps[0], ws[0] + rest);
      assert Weave(gaps, ws) == gaps[0] + (ws[0] + rest);
    }
  }

  /** Widening the first gap by one character widens the text by it. */
  lemma WeaveFront(c: char, g: seq<string>, ws: seq<string>)
    requires |g| == |ws| + 1
    ensures Weave([[c] + g[0]] + g[1..], ws) == [c] + Weave(g, ws)
  {
    var gaps := [[c] + g[0]] + g[1..];
    assert gaps[1..] == g[1..];
  }

  /** One more white space character in front keeps a layout a layout. */
  lemma LayoutFront(c: char, g: seq<string>, ws: seq<string>)
    requires IsSpace(c) && Layout(g, ws)
    ensures Layout([[c] + g[0]] + g[1..], ws)
  {
    var gaps := [[c] + g[0]] + g[1..];
    assert forall k :: 0 < k < |gaps| ==> gaps[k] == g[k];
  }

  /** A word in front, after an empty gap and before a non-empty one. */
  lemma LayoutWord(w: string, g: seq<string>, ws: seq<string>)
    requires w != [] && NoSpace(w) && Layout(g, ws)
    requires ws != [] ==> g[0] != []
    ensures Layout([[]] + g, [w] + ws)
    ensures Weave([[]] + g, [w] + ws) == w + Weave(g, ws)
  {
    var gaps := [[]] + g;
    assert forall k :: 0 < k < |gaps| ==> gaps[k] == g[k - 1];
    assert gaps[1..] == g && ([w] + ws)[1..] == ws;
  }

  /** A layout of `s` whose words are `Words(s)`; the first gap is non-empty
      when `s` starts with white space. */
  lemma {:induction false} LayoutOf(s: string) returns (gaps: seq<string>)
    ensures Layout(gaps, Words(s)) && Weave(gaps, Words(s)) == s
    ensures |s| > 0 && IsSpace(s[0]) ==> gaps[0] != []
    decreases |s|
  {
    if s == [] {
      gaps := [[]];
    } else if IsSpace(s[0]) {
      var g := LayoutOf(s[1..]);
      gaps := [[s[0]] + g[0]] + g[1..];
      assert Words(s) == Words(s[1..]);
      LayoutFront(s[0], g, Words(s));
      WeaveFront(s[0], g, Words(s));
      assert s == [s[0]] + s[1..];
    } else {
      var n := TokenLength(s);
      var g := LayoutOf(s[n..]);
      gaps := [[]] + g;
      var rest := Words(s[n..]);
      assert Words(s) == [s[..n]] + rest;
      if rest != [] {
        assert n < |s| && s[n..][0] == s[n];
      }
      LayoutWord(s[..n], g, rest);
      assert s == s[..n] + s[n..];
    }
  }

  /** Every text has a layout whose words are what `split()` returns;
      with `WordsOfLayout` this pins `Words` down on every input. */
  lemma WordsLayout(s: string)
    ensures exists gaps :: Layout(gaps, Words(s)) && Weave(gaps, Words(s)) == s
  {
    var gaps := LayoutOf(s);
  }

  /** One differing position rules a prefix out. */
  lemma DiffersAt(s: string, prefix: string, k: nat)
    requires k < |s| && k < |prefix| && s[k] != prefix[k]
    ensures !StartsWith(s, prefix)
  {
    if |prefix| <= |s| {
      assert s[..|prefix|][k] == s[k];
    }
  }

  /** A text that starts with one prefix does not start with another that
      differs from it at some position both share. */
  lemma PrefixesDiffer(s: string, p: string, q: string, k: nat)
    requires StartsWith(s, p) && k < |p| && k < |q| && p[k] != q[k]
    ensures !StartsWith(s, q)
  {
    assert s[k] == s[..|p|][k];
    DiffersAt(s, q, k);
  }

  /** A text agrees with each of its prefixes position by position. */
  lemma PrefixAt(s: string, p: string, k: nat)
    requires StartsWith(s, p) && k < |p|
    ensures s[k] == p[k]
  {
    assert s[k] == s[..|p|][k];
  }
}

=== FILE: wrappers.dfy ===
/** Optional values: a missing row, an unparsable amount, an unset date. */
module Wrappers {

  datatype Option<+T> = None | Some(value: T) {

    /** Returns the value held in Some, or `default` for None. */
    function GetOr(default: T): T {
      match this
      case Some(v) => v
      case None => default
    }
  }
}
